=== FILE: README.md ===
# Disk and washer method visualiser — a Dafny model

The visualiser teaches the disk and washer methods for solids of revolution.
It has three pieces of logic, and this project models and proves properties
of each one:

- **`VolumeCalculator`** (`calculator.dfy`, `simpson.dfy`)
  - Computes the volume with composite Simpson's rule over 1000 subintervals.
  - The integrand is built from a user expression and the rotation axis, and
    the result is multiplied by π or 2π.
  - Also builds the LaTeX formula shown next to the result.
- **`RevolutionVisualizer`** (`models3d.dfy`)
  - Cuts the interval into 50 slices and skips the slices with unusable radii.
  - Places one truncated-cone mesh per remaining slice, at the slice's midpoint
    on the rotation axis.
- **`FunctionPlotter`** (`plot.dfy`)
  - Samples a function from xMin to xMax, keeps the finite points and appends
    chart datasets.
  - For a region between two curves, builds the max/min outlines.
  - Options are defaulted with `||`, so an explicit `xMin: 0` (as passed at
    js/plot.js:324 and js/plot.js:405) is replaced by the plotter's own bound.
    The model keeps this behaviour as written (`Plot.ExplicitZeroIsReplaced`).

Shared modules:

- `js_number.dfy` models JavaScript numbers as a finite real, ±Infinity or
  NaN. It uses exact real arithmetic with the IEEE special-value rules: NaN
  absorbs, ∞ − ∞ is NaN, 0 · ∞ is NaN.
- `expressions.dfy` holds the expression evaluator and the `'x-axis'` selector.
- `wrappers.dfy` holds `Option`, which stands for absent JavaScript properties.

The expression evaluator (`math.evaluate` inside a try/catch returning NaN)
belongs to a library outside the model. It is an `Evaluator` parameter about
which nothing is assumed beyond its shape: a total, deterministic function
from an expression and an x value to a JavaScript number.

Each computation has a partner definition that its proofs connect to:

- **Simpson.** The loop-order accumulation over JavaScript numbers
  (`Simpson.Integrate`) is proved equal to the textbook weighted sum over
  reals (`Simpson.Quadrature`) whenever every sample is finite.
- **Plot.** The sampling loops are written as `while` loops
  (`Plot.SampleFunction`, `Plot.SampleRegion`). They are proved equal to the
  functional filter over the sample grid.
- **3D slices.** The slice loop is the generic `Models3D.Collect` over the
  per-iteration outcomes. Its result is characterised exactly: which
  iterations contribute, in which order, and with which piece.

## Model

| member | source | states |
|---|---|---|
| Simpson.IntegrateAgrees | js/calculator.js:30-40 | with finite samples, the loop's left-to-right sum times h/3 equals composite Simpson's rule (h/3)·Σ wᵢ·yᵢ with weights 1, 4, 2, …, 4, 1 |
| Simpson.AccumulateAgrees | js/calculator.js:32-37 | after the loop has handled indices 1..k−1, the running sum is the weighted sum of samples 0..k−1 plus the f(upperBound) term added first |
| Simpson.Accumulate | js/calculator.js:32-37 | the running `sum` after the loop has handled indices 1..k−1, over JavaScript numbers; its finiteness and NaN behaviour are stated by Simpson.AccumulateFinite and Simpson.AccumulateNaN |
| Simpson.Integrate | js/calculator.js:30-40 | `integrate`: (h/3) times the running sum after all n − 1 interior samples; Simpson.IntegrateAgrees relates it to the textbook rule |
| Simpson.AccumulateSub | js/calculator.js:32-37 | with finite samples, the running sum of a pointwise difference is the difference of the running sums, at every loop step |
| Simpson.AccumulateScale | js/calculator.js:32-37 | with finite samples, the running sum of c·f is c times the running sum of f, at every loop step |
| Simpson.WeightPrefixClosedForm | js/calculator.js:32-37 | the endpoint weight plus interior weights 4, 2, 4, … sum to 3k−2 after an odd number k of samples and to 3k−1 after an even number |
| Simpson.WeightsSum | js/calculator.js:32-37 | all Simpson weights for n subintervals sum to 3n when n is even (3n−1 when odd) |
| Simpson.IntegrateConstant | js/calculator.js:30-40 | for an even step count (the default of 1000 set at line 5 is even), `integrate` of a constant integrand c is exactly c·(upper − lower) |
| Simpson.IntegrateSub | js/calculator.js:30-40 | integrate(f − g) = integrate(f) − integrate(g) when f and g are finite at every sample |
| Simpson.IntegrateScale | js/calculator.js:30-40 | integrate(c·f) = c·integrate(f) when f is finite at every sample |
| Simpson.IntegrateCongruent | js/calculator.js:30-40 | integrands that agree at the n + 1 sample points (both endpoints included) have the same integral, NaN and ±Infinity included |
| Simpson.IntegrateFiniteIff | js/calculator.js:32-39 | the integral is a finite number exactly when the integrand is finite at every sample point |
| Simpson.AccumulateFinite | js/calculator.js:32-37 | the running sum is finite exactly when f(lower), f(upper) and every interior sample seen so far are finite |
| Simpson.IntegrateNaN | js/calculator.js:32-39 | no sample is skipped: a NaN at any one sample point makes the integral NaN |
| Simpson.AccumulateNaN | js/calculator.js:32-37 | a NaN at an endpoint or at an interior sample already visited makes the running sum NaN |
| Simpson.IntegrateZeroWidth | js/calculator.js:31-39 | with lower = upper, h = 0 and the integral is 0, or NaN when f(lower) is not finite (0·±Infinity) |
| Simpson.IntegrateNonNegative | js/calculator.js:30-40 | with lower ≤ upper and finite non-negative samples, the integral is a finite number ≥ 0 |
| Simpson.NodeEnds | js/calculator.js:31-35 | sample 0 is lowerBound and sample n is upperBound |
| Calculator.DiskVolume | js/calculator.js:43-61 | `diskMethodVolume`: π·integrate(y·y) for 'x-axis' and 2π·integrate(x·y) for any other axis string; its properties are the Calculator.DiskVolume* lemmas |
| Calculator.WasherVolume | js/calculator.js:64-84 | `washerMethodVolume`: π·integrate(outerY² − innerY²) for 'x-axis' and 2π·integrate(x·(outerY − innerY)) otherwise; related to the disk volumes by Calculator.WasherIsDiskDifference |
| Calculator.DiskXIntegrand | js/calculator.js:46-49 | the x-axis disk integrand y·y |
| Calculator.DiskYIntegrand | js/calculator.js:54-57 | the y-axis disk integrand x·y |
| Calculator.WasherXIntegrand | js/calculator.js:67-71 | the x-axis washer integrand outerY·outerY − innerY·innerY |
| Calculator.WasherYIntegrand | js/calculator.js:76-80 | the y-axis washer integrand x·(outerY − innerY) |
| Calculator.DiskVolumeFinite | js/calculator.js:43-61 | the disk volume is finite on either axis exactly when the expression is finite at all 1001 sample points |
| Calculator.DiskVolumeNaN | js/calculator.js:43-61 | one NaN evaluation at any sample point makes the disk volume NaN, on either axis |
| Calculator.WasherVolumeNaN | js/calculator.js:64-84 | one NaN evaluation of either expression at any sample point makes the washer volume NaN |
| Calculator.DiskVolumeNonNegative | js/calculator.js:43-51 | about the x-axis, with lower ≤ upper and finite samples, the disk volume is a finite number ≥ 0 (π·∫y²) |
| Calculator.DiskOfConstantIsCylinder | js/calculator.js:43-51 | a constant radius c about the x-axis gives exactly the cylinder volume π·c²·(upper − lower) |
| Calculator.DiskVolumeZeroWidth | js/calculator.js:43-61 | a zero-width interval gives volume 0 on either axis (NaN when the expression is not finite there) |
| Calculator.OtherAxisIsYAxis | js/calculator.js:44-60 | every axis string other than 'x-axis' gives the y-axis (2π·∫x·y) volume, for disks and washers |
| Calculator.WasherIsDiskDifference | js/calculator.js:43-84 | with finite samples, washer volume = disk volume of the outer function − disk volume of the inner one, on both axes |
| Calculator.WasherXIntegralIsDiskDifference | js/calculator.js:64-73 | for any step count, with finite samples, the x-axis washer integral of outerY² − innerY² is the outer disk integral minus the inner one |
| Calculator.WasherYIntegralIsDiskDifference | js/calculator.js:74-84 | for any step count, with finite samples, the y-axis washer integral of x·(outerY − innerY) is the outer disk integral minus the inner one |
| Calculator.WasherWithZeroInnerIsDisk | js/calculator.js:64-84 | when the inner function is 0 at every sample, the washer volume equals the outer function's disk volume, NaN or not |
| Calculator.WasherXIntegralWithZeroInner | js/calculator.js:64-73 | for any step count, an inner function that is 0 at every sample makes the x-axis washer integral the outer disk integral |
| Calculator.WasherYIntegralWithZeroInner | js/calculator.js:74-84 | for any step count, an inner function that is 0 at every sample makes the y-axis washer integral the outer disk integral |
| Calculator.DiskLatex | js/calculator.js:87-93 | the LaTeX formula starts `V = \pi` exactly for the x-axis (else `V = 2\pi`), writes the lower bound as the lower limit and the upper bound as the upper one, and writes the integrand as `[f]^2` about the x-axis and as `x \cdot (f)` otherwise |
| Calculator.WasherLatex | js/calculator.js:95-101 | the LaTeX formula starts `V = \pi` exactly for the x-axis (else `V = 2\pi`), has the limits in order, and subtracts the inner curve from the outer one: `[(outer)^2 - (inner)^2]` about the x-axis and `x \cdot [(outer) - (inner)]` otherwise |
| Calculator.PartOccurs | js/calculator.js:89 | each interpolated piece of a template string occurs verbatim in the resulting string |
| Calculator.RunOccurs | js/calculator.js:89 | any run of consecutive pieces of a template string occurs verbatim, in order, in the resulting string |
| Models3D.Collect | js/3d-models.js:117-151 | the pieces a loop adds: at most one per iteration, each equal to its iteration's piece, in strictly ascending index order |
| Models3D.SliceAt | js/3d-models.js:117-150 | what iteration i of the disk loop (and of the washer loop, lines 180-216) does: nothing when it `continue`s, else a piece with index i spanning [lower + i·step, lower + (i+1)·step] with mesh height step; which iterations add their piece to the group is Models3D.ModelMembers and Models3D.CollectComplete |
| Models3D.Iterations | js/3d-models.js:117-118 | the 50 iterations i = 0..49 in loop order, each the outcome of Models3D.SliceAt; Models3D.ModelMembers states which of them reach the group |
| Models3D.Model | js/3d-models.js:102-154 | the pieces the new group receives: at most 50, in strictly ascending iteration order; their exact membership is Models3D.ModelMembers |
| Models3D.CollectComplete | js/3d-models.js:125-128 | every iteration that does not `continue` contributes its piece |
| Models3D.ModelMembers | js/3d-models.js:180-217 | the model holds at most 50 pieces, and a piece is in it exactly when its iteration adds it |
| Models3D.DiskKeptIff | js/3d-models.js:122-128 | a disk slice is drawn exactly when both end radii are non-negative numbers or +Infinity; NaN or negative radii are skipped |
| Models3D.DiskRadiiValid | js/3d-models.js:126-138 | every drawn disk has non-NaN radii that are ≥ 0 or +Infinity |
| Models3D.WasherKeptIff | js/3d-models.js:185-195 | a washer slice is drawn exactly when none of its four radii is NaN, so negative radii and inner > outer are drawn |
| Models3D.CreateDiskModel | js/3d-models.js:94-155 | `createDiskModel` installs a new group holding exactly the loop's pieces (so Models3D.ModelMembers describes it): at most 50 disks, none with a NaN or negative radius |
| Models3D.CreateWasherModel | js/3d-models.js:157-221 | `createWasherModel` installs a new group holding exactly the loop's pieces (so Models3D.ModelMembers describes it): at most 50 washers, none with a NaN radius |
| Models3D.ModelIgnoresPreviousSolid | js/3d-models.js:94-102 | the new solid replaces the old one: the result of either builder does not depend on the previous solid (lines 157-165 for washers) |
| Models3D.SliceLayout | js/3d-models.js:106-148 | slice i spans [lower + i·step, lower + i·step + step] with step = (upper − lower)/50 and is centred at its midpoint, along x exactly for 'x-axis' |
| Models3D.PieceLayout | js/3d-models.js:106-148 | every piece of a model is laid out as the slice its index names, with the step as its height |
| Models3D.Contiguous | js/3d-models.js:118-119 | pieces of consecutive loop indices are contiguous: one ends exactly where the next begins |
| Models3D.PositionsAscending | js/3d-models.js:117-151 | for lower < upper, later pieces sit strictly further along the rotation axis |
| Models3D.NoSkipsGivesEveryPiece | js/3d-models.js:105-117 | when no iteration skips, the model has exactly 50 pieces and piece k comes from iteration k |
| Models3D.NoSkipsCollectsAll | js/3d-models.js:117-151 | when no iteration from i on skips, the loop adds one piece for each of them, in index order |
| Models3D.WasherGeometry | js/3d-models.js:223-261 | the returned cylinder uses the outer radii and the height; the inner radii have no effect |
| Models3D.WasherMeshIsOuterCylinder | js/3d-models.js:198-260 | every washer mesh is the outer function's cylinder over the piece, whatever the inner function is |
| Models3D.WasherSliceMesh | js/3d-models.js:198-216 | a drawn washer slice carries the outer function's cylinder over its own span |
| Models3D.WasherCoversOuterDisk | js/3d-models.js:185-204 | where the outer function's disk slice is drawn and the inner radii are not NaN, the washer slice is drawn with the same mesh and position |
| Models3D.Place | js/3d-models.js:143-148 | the mesh is placed along x exactly when the axis is 'x-axis', and along y for every other string |
| Plot.SampleFunction | js/plot.js:111-120 | the loop `x = xMin; x <= xMax; x += stepSize` ends and returns exactly the finite points at the grid xMin + k·stepSize, k = 0..steps |
| Plot.SampleRegion | js/plot.js:167-177 | the region loop ends and returns exactly the grid points where both functions are finite, with both values |
| Plot.KeepFiniteExtend | js/plot.js:115-119 | one more loop round appends that x's point to the curve data exactly when its value is finite |
| Plot.KeepBothFiniteExtend | js/plot.js:170-177 | one more region loop round appends that x's point exactly when both values are finite |
| Plot.StepSize | js/plot.js:112 | `stepSize = (xMax − xMin) / steps`: steps steps of that size lead from xMin exactly to xMax |
| Plot.Terminates | js/plot.js:112-115 | the loop ends exactly when xMin > xMax, or xMin < xMax with a positive step count; Plot.LoopNeverExits covers the other cases |
| Plot.Grid | js/plot.js:112-115 | the x values the loop visits when it ends: none for xMin > xMax, else steps + 1 of them; Plot.GridShape and Plot.LoopXIsGridPoint state their values |
| Plot.GridStep | js/plot.js:115 | `x += stepSize` moves from one visited x to the next, and from the last one past xMax |
| Plot.KeepFinite | js/plot.js:116-119 | each kept point is (x, y) with y a finite value of the function at a visited x, and every visited x with a finite value is kept |
| Plot.KeepFiniteAscending | js/plot.js:115-119 | visiting ascending x values yields points with strictly ascending x |
| Plot.KeepFiniteStartsWithFirst | js/plot.js:115-119 | visiting ascending x values whose first x has a finite value makes (first x, its value) the first point |
| Plot.KeepFiniteWithin | js/plot.js:115-119 | visiting x values inside an interval yields points whose x lies in that interval |
| Plot.KeepBothFinite | js/plot.js:170-177 | a region point is kept exactly when both functions are finite at its x, and it records both values |
| Plot.FunctionDataEmpty | js/plot.js:112-115 | with xMin > xMax the loop body never runs, so the curve has no data |
| Plot.FunctionDataCount | js/plot.js:111-120 | the curve has at most steps + 1 points |
| Plot.FunctionDataOnCurve | js/plot.js:115-119 | every point (x, y) of the curve has xMin ≤ x ≤ xMax and y the finite value of the function at x |
| Plot.FunctionDataAscending | js/plot.js:111-120 | the points of the curve come in strictly ascending x order |
| Plot.FunctionDataStartsAtMin | js/plot.js:111-120 | when the function is finite at xMin, the first point of the curve is (xMin, f(xMin)) |
| Plot.GridShape | js/plot.js:112-115 | the visited x values start at xMin, end at xMax, strictly increase and stay within [xMin, xMax] |
| Plot.LoopNeverExits | js/plot.js:112-115 | with xMin == xMax (step 0), or xMin < xMax with a negative step count, x never passes xMax, so the loop does not terminate |
| Plot.LoopXIsGridPoint | js/plot.js:115 | x accumulated by repeated `x += stepSize` equals xMin + k·stepSize in exact arithmetic |
| Plot.PlotFunction | js/plot.js:97-138 | it hangs exactly when its loop does not terminate; otherwise it appends exactly one dataset, after the optional clear, and leaves the bounds unchanged |
| Plot.PlotRegion | js/plot.js:140-206 | it appends the two curves sampled with 100 steps, then 'Region' (max) and 'Region Bottom' (min) sampled with the region's own step count (options.steps, defaulting to 100) |
| Plot.OutlinesBracket | js/plot.js:179-202 | the outlines share their x values, top ≥ bottom, and {top, bottom} = {y1, y2} at every point |
| Plot.Top | js/plot.js:179-189 | the 'Region' outline: one point per region point, at the larger of the two values |
| Plot.Bottom | js/plot.js:191-197 | the 'Region Bottom' outline: one point per region point, at the smaller of the two values |
| Plot.Cleared | js/plot.js:99-101 | `options.clear` empties the datasets before anything is added; otherwise they are kept (also lines 142-144) |
| Plot.RegionIsCommonPart | js/plot.js:150-177 | with the default 100 steps, region points are exactly the x values present in both curves' data, paired with their y values |
| Plot.OrReal | js/plot.js:109-110 | JavaScript's `options.xMin \|\| default`: the option when it is present and non-zero, the default when it is absent or 0 |
| Plot.OrInt | js/plot.js:111 | `options.steps \|\| 100`: the option when present and non-zero, else the default, so the step count is never 0 |
| Plot.OrString | js/plot.js:104 | `options.label \|\| 'f(x)'`: the label when present and non-empty, else the default, so the label is never empty |
| Plot.ExplicitZeroIsReplaced | js/plot.js:109-110 | an explicit bound of 0 is replaced by the plotter's default, just like an absent one |
| Plot.OrRealIdempotent | js/plot.js:146-155 | re-defaulting an already defaulted bound, as plotRegion's inner calls do, changes nothing |
| Plot.NewPlotter | js/plot.js:3-16 | the constructor keeps every given bound, 0 included, defaults the rest to −5, 5, −5, 5, and starts with no datasets |
| Plot.UpdateBounds | js/plot.js:247-259 | updateBounds sets the four bounds, sets the chart scales to the same values, and leaves the datasets unchanged |
| Plot.UpdateBoundsOverrides | js/plot.js:247-259 | a later updateBounds fully overrides an earlier one |

## Left out

- The inside of `math.evaluate` (parsing, the scope of math functions):
  - It is a foreign library, so the evaluator is a parameter.
  - The 3D evaluator also binds `y` to the same value as `x`. That is part of
    the evaluator and not modelled separately.
- IEEE-754 rounding, overflow to ±Infinity, and the sign of zero:
  - Arithmetic is exact over reals.
  - The drift of the plot loop's `x += stepSize` is absent. Its x values are
    exactly xMin + k·stepSize, so the loop makes exactly steps + 1 rounds.
  - In floating point the last round can be lost or gained.
  - When stepSize is below half an ulp of x, `x += stepSize` leaves x
    unchanged and the loop never ends. For example xMin = 1e17,
    xMax = 1e17 + 16, steps = 100. The model ends after steps + 1 rounds.
- Evaluators that are not deterministic functions to numbers. A mathjs
  expression using `random()` gives different values on repeated calls, and a
  matrix, string or complex result (mathjs gives a Complex for a fractional
  power of a negative base) is used by the code as if it were a number,
  coerced by `*`, `<` and `isFinite`; the
  `Evaluator` parameter can express neither.
- JavaScript's number-to-string conversion in the LaTeX templates. It is the
  parameter `show`.
- `Math.PI` is the exact decimal value of the double `Math.PI`. Transcendental
  functions are inside the evaluator and not modelled.
- Bounds that `parseFloat` turns into NaN. Bounds are reals, so NaN bounds and
  NaN `xMin`/`xMax` options are not modelled.
- NaN bounds passed to `updateBounds`. The page computes `yMax` as
  `Math.max(5, evaluateFunction(...) + 1)` (js/plot.js:290, and similarly
  js/plot.js:347-348), which is NaN when the evaluation fails; the real-typed
  bounds of `Plot.UpdateBounds` cannot hold NaN.
- Bounds that `parseFloat` turns into ±Infinity (the input "Infinity"). Bounds
  are reals, so infinite bounds, infinite step sizes and the NaN grid they
  produce are not modelled.
- Simpson.Integrate: requires at least one subinterval. The source accepts any
  `steps`, but every caller uses the default of 1000.
- Fractional `options.steps` values. Steps are integers.
- Default parameter values:
  - `axis = 'x-axis'` in the 3D builders: the axis is always given.
  - `options = {}`: an absent option is `None`.
- Models3D.CreateDiskModel, Models3D.CreateWasherModel: THREE.js scene
  management is left out. The scene, camera, renderer, materials, mesh
  rotation and adding or removing the group are represented only by the group
  replacing the previous one.
- `createWasherGeometry`'s inner cylinder and material. They are built and then
  discarded, so they have no observable effect.
- Chart.js styling: colours, border widths, fill settings, tension, and
  `chart.update()`.
- Tooltip formatting with `toFixed`.
- `addRotationAxis` and `clear` of the plotter: short dataset edits outside the
  sampling logic.
- The DOM:
  - event handlers;
  - the `window.update*` callbacks;
  - MathJax;
  - the DOMContentLoaded wiring at the bottom of each file;
  - `console.error` logging.
- js/main.js, js/navigation.js and js/examples.js are not part of this model.
  They hold WebGL detection, the intro animation, navigation and page toggles.

=== FILE: calculator.dfy ===
/**
  `VolumeCalculator`: disk- and washer-method volumes by Simpson's rule with
  1000 subintervals, and the LaTeX formula shown next to the result.

  The expression evaluator (`math.evaluate` inside a try/catch that turns
  every exception into NaN) belongs to a library outside this model; it is
  the parameter `eval`, about which nothing is assumed.
 */
module Calculator {
  import opened JsNumber
  import opened Simpson
  import opened Expressions

  /** The exact value of the double `Math.PI` */
  const Pi: real := 3.141592653589793115997963468544185161590576171875

  /** Disk integrand about the x-axis: `y * y` */
  function DiskXIntegrand(eval: Evaluator, expr: string): real -> Num {
    x => Mul(eval(expr, x), eval(expr, x))
  }

  /** Disk integrand about the y-axis: `x * y` */
  function DiskYIntegrand(eval: Evaluator, expr: string): real -> Num {
    x => Mul(Fin(x), eval(expr, x))
  }

  /** Washer integrand about the x-axis: `outerY * outerY - innerY * innerY` */
  function WasherXIntegrand(eval: Evaluator, outer: string, inner: string): real -> Num {
    x => Sub(Mul(eval(outer, x), eval(outer, x)), Mul(eval(inner, x), eval(inner, x)))
  }

  /** Washer integrand about the y-axis: `x * (outerY - innerY)` */
  function WasherYIntegrand(eval: Evaluator, outer: string, inner: string): real -> Num {
    x => Mul(Fin(x), Sub(eval(outer, x), eval(inner, x)))
  }

  /** `diskMethodVolume(funcStr, lowerBound, upperBound, rotationAxis)` */
  function DiskVolume(eval: Evaluator, expr: string, a: real, b: real, axis: string): Num {
    if axis == XAxis then Mul(Fin(Pi), Integrate(DiskXIntegrand(eval, expr), a, b, DefaultSteps))
    else Mul(Fin(2.0 * Pi), Integrate(DiskYIntegrand(eval, expr), a, b, DefaultSteps))
  }

  /** `washerMethodVolume(outerFuncStr, innerFuncStr, lowerBound, upperBound, rotationAxis)` */
  function WasherVolume(eval: Evaluator, outer: string, inner: string, a: real, b: real, axis: string): Num {
    if axis == XAxis then Mul(Fin(Pi), Integrate(WasherXIntegrand(eval, outer, inner), a, b, DefaultSteps))
    else Mul(Fin(2.0 * Pi), Integrate(WasherYIntegrand(eval, outer, inner), a, b, DefaultSteps))
  }

  /** The expression evaluates to a finite number at the sample points 0..n of Simpson's rule on [a, b]. */
  predicate FiniteSamples(eval: Evaluator, expr: string, a: real, b: real, n: nat)
    requires n >= 1
  {
    forall i: nat :: i <= n ==> eval(expr, SamplePoint(a, b, n, i)).Fin?
  }

  /** The expression evaluates to a finite number at every sample point. */
  predicate EvalFinite(eval: Evaluator, expr: string, a: real, b: real) {
    FiniteSamples(eval, expr, a, b, DefaultSteps)
  }

  /** The disk volume is a finite number exactly when the expression is finite at every sample point. */
  lemma DiskVolumeFinite(eval: Evaluator, expr: string, a: real, b: real, axis: string)
    ensures DiskVolume(eval, expr, a, b, axis).Fin? <==> EvalFinite(eval, expr, a, b)
  {
    IntegrateFiniteIff(DiskXIntegrand(eval, expr), a, b, DefaultSteps);
    IntegrateFiniteIff(DiskYIntegrand(eval, expr), a, b, DefaultSteps);
  }

  /** No sample is skipped: one NaN evaluation makes the disk volume NaN, on either axis. */
  lemma DiskVolumeNaN(eval: Evaluator, expr: string, a: real, b: real, axis: string, j: nat)
    requires j <= DefaultSteps && eval(expr, SamplePoint(a, b, DefaultSteps, j)).NaN?
    ensures DiskVolume(eval, expr, a, b, axis).NaN?
  {
    IntegrateNaN(DiskXIntegrand(eval, expr), a, b, DefaultSteps, j);
    IntegrateNaN(DiskYIntegrand(eval, expr), a, b, DefaultSteps, j);
  }

  /** One NaN evaluation of either expression makes the washer volume NaN, on either axis. */
  lemma WasherVolumeNaN(eval: Evaluator, outer: string, inner: string, a: real, b: real, axis: string, j: nat)
    requires j <= DefaultSteps
    requires eval(outer, SamplePoint(a, b, DefaultSteps, j)).NaN? || eval(inner, SamplePoint(a, b, DefaultSteps, j)).NaN?
    ensures WasherVolume(eval, outer, inner, a, b, axis).NaN?
  {
    IntegrateNaN(WasherXIntegrand(eval, outer, inner), a, b, DefaultSteps, j);
    IntegrateNaN(WasherYIntegrand(eval, outer, inner), a, b, DefaultSteps, j);
  }

  /** About the x-axis, with lowerBound <= upperBound and finite samples, the disk volume is a non-negative number. */
  lemma DiskVolumeNonNegative(eval: Evaluator, expr: string, a: real, b: real)
    requires a <= b && EvalFinite(eval, expr, a, b)
    ensures DiskVolume(eval, expr, a, b, XAxis).Fin?
    ensures DiskVolume(eval, expr, a, b, XAxis).val >= 0.0
  {
    var f := DiskXIntegrand(eval, expr);
    forall i: nat | i <= DefaultSteps
      ensures f(SamplePoint(a, b, DefaultSteps, i)).Fin? && f(SamplePoint(a, b, DefaultSteps, i)).val >= 0.0
    {
      var y := eval(expr, SamplePoint(a, b, DefaultSteps, i)).val;
      assert y * y >= 0.0;
    }
    IntegrateNonNegative(f, a, b, DefaultSteps);
  }

  /** A constant radius c about the x-axis gives the cylinder volume pi * c^2 * (b - a). */
  lemma DiskOfConstantIsCylinder(eval: Evaluator, expr: string, c: real, a: real, b: real)
    requires forall i: nat :: i <= DefaultSteps ==> eval(expr, SamplePoint(a, b, DefaultSteps, i)) == Fin(c)
    ensures DiskVolume(eval, expr, a, b, XAxis) == Fin(Pi * (c * c * (b - a)))
  {
    ConstantSquareIntegral(eval, expr, c, a, b, DefaultSteps);
  }

  lemma ConstantSquareIntegral(eval: Evaluator, expr: string, c: real, a: real, b: real, n: nat)
    requires n >= 1 && n % 2 == 0
    requires forall i: nat :: i <= n ==> eval(expr, SamplePoint(a, b, n, i)) == Fin(c)
    ensures Integrate(DiskXIntegrand(eval, expr), a, b, n) == Fin(c * c * (b - a))
  {
    var f := DiskXIntegrand(eval, expr);
    forall i: nat | i <= n
      ensures f(SamplePoint(a, b, n, i)) == Fin(c * c)
    {
      assert eval(expr, SamplePoint(a, b, n, i)) == Fin(c);
    }
    IntegrateConstant(f, c * c, a, b, n);
  }

  /** A zero-width interval has volume 0, or NaN when the expression is not finite at that point. */
  lemma DiskVolumeZeroWidth(eval: Evaluator, expr: string, a: real, axis: string)
    ensures DiskVolume(eval, expr, a, a, axis) == (if eval(expr, a).Fin? then Fin(0.0) else NaN)
  {
    IntegrateZeroWidth(DiskXIntegrand(eval, expr), a, DefaultSteps);
    IntegrateZeroWidth(DiskYIntegrand(eval, expr), a, DefaultSteps);
  }

  /** Every axis string other than 'x-axis' selects the y-axis formulas. */
  lemma OtherAxisIsYAxis(eval: Evaluator, outer: string, inner: string, a: real, b: real, axis: string)
    requires axis != XAxis
    ensures DiskVolume(eval, outer, a, b, axis) == DiskVolume(eval, outer, a, b, "y-axis")
    ensures WasherVolume(eval, outer, inner, a, b, axis) == WasherVolume(eval, outer, inner, a, b, "y-axis")
  {
  }

  /** With finite samples, the x-axis washer integral is the outer disk integral minus the inner one, for any step count. */
  lemma WasherXIntegralIsDiskDifference(eval: Evaluator, outer: string, inner: string, a: real, b: real, n: nat)
    requires n >= 1
    requires FiniteSamples(eval, outer, a, b, n) && FiniteSamples(eval, inner, a, b, n)
    ensures Integrate(WasherXIntegrand(eval, outer, inner), a, b, n) ==
            Sub(Integrate(DiskXIntegrand(eval, outer), a, b, n), Integrate(DiskXIntegrand(eval, inner), a, b, n))
  {
    var f, f1, f2 := WasherXIntegrand(eval, outer, inner), DiskXIntegrand(eval, outer), DiskXIntegrand(eval, inner);
    assert FiniteOn(f1, a, b, n) && FiniteOn(f2, a, b, n);
    IntegrateSub(f, f1, f2, a, b, n);
  }

  /** With finite samples, the y-axis washer integral is the outer disk integral minus the inner one, for any step count. */
  lemma WasherYIntegralIsDiskDifference(eval: Evaluator, outer: string, inner: string, a: real, b: real, n: nat)
    requires n >= 1
    requires FiniteSamples(eval, outer, a, b, n) && FiniteSamples(eval, inner, a, b, n)
    ensures Integrate(WasherYIntegrand(eval, outer, inner), a, b, n) ==
            Sub(Integrate(DiskYIntegrand(eval, outer), a, b, n), Integrate(DiskYIntegrand(eval, inner), a, b, n))
  {
    var f, f1, f2 := WasherYIntegrand(eval, outer, inner), DiskYIntegrand(eval, outer), DiskYIntegrand(eval, inner);
    forall i: nat | i <= n
      ensures f(SamplePoint(a, b, n, i)) == Sub(f1(SamplePoint(a, b, n, i)), f2(SamplePoint(a, b, n, i)))
    {
      var x := SamplePoint(a, b, n, i);
      MulSubFinite(x, eval(outer, x), eval(inner, x));
    }
    assert FiniteOn(f1, a, b, n) && FiniteOn(f2, a, b, n);
    IntegrateSub(f, f1, f2, a, b, n);
  }

  /** With finite samples, the washer volume is the outer disk volume minus the inner disk volume, on both axes. */
  lemma WasherIsDiskDifference(eval: Evaluator, outer: string, inner: string, a: real, b: real, axis: string)
    requires EvalFinite(eval, outer, a, b) && EvalFinite(eval, inner, a, b)
    ensures WasherVolume(eval, outer, inner, a, b, axis) ==
            Sub(DiskVolume(eval, outer, a, b, axis), DiskVolume(eval, inner, a, b, axis))
  {
    var n := DefaultSteps;
    if axis == XAxis {
      var f1, f2 := DiskXIntegrand(eval, outer), DiskXIntegrand(eval, inner);
      WasherXIntegralIsDiskDifference(eval, outer, inner, a, b, n);
      IntegrateFiniteIff(f1, a, b, n);
      IntegrateFiniteIff(f2, a, b, n);
      MulSubFinite(Pi, Integrate(f1, a, b, n), Integrate(f2, a, b, n));
    } else {
      var f1, f2 := DiskYIntegrand(eval, outer), DiskYIntegrand(eval, inner);
      WasherYIntegralIsDiskDifference(eval, outer, inner, a, b, n);
      IntegrateFiniteIff(f1, a, b, n);
      IntegrateFiniteIff(f2, a, b, n);
      MulSubFinite(2.0 * Pi, Integrate(f1, a, b, n), Integrate(f2, a, b, n));
    }
  }

  /** An inner function that is 0 at every sample point makes the x-axis washer integral the outer disk integral. */
  lemma WasherXIntegralWithZeroInner(eval: Evaluator, outer: string, inner: string, a: real, b: real, n: nat)
    requires n >= 1
    requires forall i: nat :: i <= n ==> eval(inner, SamplePoint(a, b, n, i)) == Fin(0.0)
    ensures Integrate(WasherXIntegrand(eval, outer, inner), a, b, n) == Integrate(DiskXIntegrand(eval, outer), a, b, n)
  {
    var f, g := WasherXIntegrand(eval, outer, inner), DiskXIntegrand(eval, outer);
    assert forall i: nat :: i <= n ==> f(SamplePoint(a, b, n, i)) == g(SamplePoint(a, b, n, i)) by {
      forall i: nat | i <= n
        ensures f(SamplePoint(a, b, n, i)) == g(SamplePoint(a, b, n, i))
      {
        var x := SamplePoint(a, b, n, i);
        assert Mul(eval(inner, x), eval(inner, x)) == Fin(0.0);
        SubZero(Mul(eval(outer, x), eval(outer, x)));
      }
    }
    IntegrateCongruent(f, g, a, b, n);
  }

  /** An inner function that is 0 at every sample point makes the y-axis washer integral the outer disk integral. */
  lemma WasherYIntegralWithZeroInner(eval: Evaluator, outer: string, inner: string, a: real, b: real, n: nat)
    requires n >= 1
    requires forall i: nat :: i <= n ==> eval(inner, SamplePoint(a, b, n, i)) == Fin(0.0)
    ensures Integrate(WasherYIntegrand(eval, outer, inner), a, b, n) == Integrate(DiskYIntegrand(eval, outer), a, b, n)
  {
    var f, g := WasherYIntegrand(eval, outer, inner), DiskYIntegrand(eval, outer);
    assert forall i: nat :: i <= n ==> f(SamplePoint(a, b, n, i)) == g(SamplePoint(a, b, n, i)) by {
      forall i: nat | i <= n
        ensures f(SamplePoint(a, b, n, i)) == g(SamplePoint(a, b, n, i))
      {
        SubZero(eval(outer, SamplePoint(a, b, n, i)));
      }
    }
    IntegrateCongruent(f, g, a, b, n);
  }

  /** An inner function that is 0 at every sample point turns the washer volume into the outer disk volume, NaN or not. */
  lemma WasherWithZeroInnerIsDisk(eval: Evaluator, outer: string, inner: string, a: real, b: real, axis: string)
    requires forall i: nat :: i <= DefaultSteps ==> eval(inner, SamplePoint(a, b, DefaultSteps, i)) == Fin(0.0)
    ensures WasherVolume(eval, outer, inner, a, b, axis) == DiskVolume(eval, outer, a, b, axis)
  {
    WasherXIntegralWithZeroInner(eval, outer, inner, a, b, DefaultSteps);
    WasherYIntegralWithZeroInner(eval, outer, inner, a, b, DefaultSteps);
  }

  /** The concatenation of the pieces of a template string */
  function Concat(parts: seq<string>): string {
    if |parts| == 0 then "" else parts[0] + Concat(parts[1..])
  }

  /** `s` appears verbatim somewhere in `t`. */
  predicate Occurs(s: string, t: string) {
    exists i :: 0 <= i <= |t| && s <= t[i..]
  }

  /** Every piece of a template appears verbatim in the concatenated string. */
  lemma {:induction false} PartOccurs(parts: seq<string>, j: nat)
    requires j < |parts|
    ensures Occurs(parts[j], Concat(parts))
  {
    var t := Concat(parts);
    if j == 0 {
      assert parts[0] <= t[0..];
    } else {
      PartOccurs(parts[1..], j - 1);
      var rest := Concat(parts[1..]);
      var i :| 0 <= i <= |rest| && parts[j] <= rest[i..];
      assert t[|parts[0]| + i..] == rest[i..];
    }
  }

  /** Concatenating two templates concatenates their strings. */
  lemma {:induction false} ConcatAppend(p: seq<string>, q: seq<string>)
    ensures Concat(p + q) == Concat(p) + Concat(q)
  {
    if |p| > 0 {
      assert (p + q)[1..] == p[1..] + q;
      ConcatAppend(p[1..], q);
    } else {
      assert p + q == q;
    }
  }

  /** Any run of consecutive pieces of a template appears verbatim, in order, in the concatenated string. */
  lemma RunOccurs(parts: seq<string>, i: nat, j: nat)
    requires i <= j <= |parts|
    ensures Occurs(Concat(parts[i..j]), Concat(parts))
  {
    var pre, mid, post := Concat(parts[..i]), Concat(parts[i..j]), Concat(parts[j..]);
    assert Concat(parts) == pre + (mid + post) by {
      var rest := parts[i..];
      ConcatSplit(parts, i);
      ConcatSplit(rest, j - i);
      assert rest[..j - i] == parts[i..j];
      assert rest[j - i..] == parts[j..];
    }
    OccursAfter(pre, mid, post);
  }

  /** Cutting a template in two splits its string at the same place. */
  lemma ConcatSplit(parts: seq<string>, i: nat)
    requires i <= |parts|
    ensures Concat(parts) == Concat(parts[..i]) + Concat(parts[i..])
  {
    assert parts == parts[..i] + parts[i..];
    ConcatAppend(parts[..i], parts[i..]);
  }

  /** A string occurs in any string that has it after some prefix. */
  lemma OccursAfter(pre: string, mid: string, post: string)
    ensures Occurs(mid, pre + (mid + post))
  {
    assert mid <= (pre + (mid + post))[|pre|..];
  }

  lemma Concat3(a: string, b: string, c: string)
    ensures Concat([a, b, c]) == a + b + c
  {
    assert [a, b, c][1..] == [b, c];
    assert [b, c][1..] == [c];
    assert [c][1..] == [];
    assert Concat([c]) == c;
    assert Concat([b, c]) == b + c;
  }

  lemma Concat5(a: string, b: string, c: string, d: string, e: string)
    ensures Concat([a, b, c, d, e]) == a + b + c + d + e
  {
    assert [a, b, c, d, e][1..] == [b, c, d, e];
    assert [b, c, d, e][1..] == [c, d, e];
    Concat3(c, d, e);
  }

  /** The limits of integration as the templates write them: lower bound below, upper bound above */
  function Limits(show: real -> string, lo: real, hi: real): string {
    @"\int_{" + show(lo) + "}^{" + show(hi) + "}"
  }

  /** The first six pieces of both templates: the π or 2π factor and the limits */
  function Head(show: real -> string, lo: real, hi: real, axis: string): seq<string> {
    [if axis == XAxis then @"V = \pi " else @"V = 2\pi ", @"\int_{", show(lo), "}^{", show(hi), "}"]
  }

  /** The facts shared by both templates: the formula opens with the right factor and the limits are in order. */
  lemma {:induction false} HeadFacts(show: real -> string, lo: real, hi: real, axis: string, tail: seq<string>)
    ensures Occurs(Limits(show, lo, hi), Concat(Head(show, lo, hi, axis) + tail))
    ensures axis == XAxis <==> @"V = \pi" <= Concat(Head(show, lo, hi, axis) + tail)
    ensures axis != XAxis ==> @"V = 2\pi" <= Concat(Head(show, lo, hi, axis) + tail)
    ensures @"V = " <= Concat(Head(show, lo, hi, axis) + tail)
    ensures Occurs(show(lo), Concat(Head(show, lo, hi, axis) + tail))
    ensures Occurs(show(hi), Concat(Head(show, lo, hi, axis) + tail))
  {
    var parts := Head(show, lo, hi, axis) + tail;
    PartOccurs(parts, 2);
    PartOccurs(parts, 4);
    RunOccurs(parts, 1, 6);
    assert parts[1..6] == [@"\int_{", show(lo), "}^{", show(hi), "}"];
    Concat5(@"\int_{", show(lo), "}^{", show(hi), "}");
    var r := Concat(parts);
    assert r == parts[0] + Concat(parts[1..]);
    assert parts[0] <= r;
    assert axis != XAxis ==> r[4] == '2';
  }

  /** What occurs in the tail of a template occurs in the whole template. */
  lemma OccursInTail(head: seq<string>, tail: seq<string>, s: string)
    requires Occurs(s, Concat(tail))
    ensures Occurs(s, Concat(head + tail))
  {
    ConcatAppend(head, tail);
    var k :| 0 <= k <= |Concat(tail)| && s <= Concat(tail)[k..];
    assert (Concat(head) + Concat(tail))[|Concat(head)| + k..] == Concat(tail)[k..];
  }

  /** `getDiskMethodLatex(funcStr, lowerBound, upperBound, rotationAxis)`; `show` is JavaScript's number-to-string conversion. */
  function DiskLatex(show: real -> string, expr: string, lo: real, hi: real, axis: string): (r: string)
    ensures Occurs(show(lo), r) && Occurs(show(hi), r) && Occurs(expr, r)
    ensures Occurs(Limits(show, lo, hi), r)
    ensures axis == XAxis ==> Occurs("[" + expr + "]^2", r)
    ensures axis != XAxis ==> Occurs(@"x \cdot (" + expr + ")", r)
    ensures axis == XAxis <==> @"V = \pi" <= r
    ensures axis != XAxis ==> @"V = 2\pi" <= r
    ensures @"V = " <= r
  {
    var tail :=
      if axis == XAxis then [" ", "[", expr, "]^2", @" \, dx"]
      else [" ", @"x \cdot (", expr, ")", @" \, dx"];
    var head := Head(show, lo, hi, axis);
    HeadFacts(show, lo, hi, axis, tail);
    PartOccurs(tail, 2);
    OccursInTail(head, tail, expr);
    RunOccurs(tail, 1, 4);
    assert tail[1..4] == [tail[1], tail[2], tail[3]];
    Concat3(tail[1], tail[2], tail[3]);
    OccursInTail(head, tail, Concat(tail[1..4]));
    Concat(head + tail)
  }

  /** `getWasherMethodLatex(outerFuncStr, innerFuncStr, lowerBound, upperBound, rotationAxis)` */
  function WasherLatex(show: real -> string, outer: string, inner: string, lo: real, hi: real, axis: string): (r: string)
    ensures Occurs(show(lo), r) && Occurs(show(hi), r) && Occurs(outer, r) && Occurs(inner, r)
    ensures Occurs(Limits(show, lo, hi), r)
    ensures axis == XAxis ==> Occurs("[(" + outer + ")^2 - (" + inner + ")^2]", r)
    ensures axis != XAxis ==> Occurs(@"x \cdot [(" + outer + ") - (" + inner + ")]", r)
    ensures axis == XAxis <==> @"V = \pi" <= r
    ensures axis != XAxis ==> @"V = 2\pi" <= r
    ensures @"V = " <= r
  {
    var tail :=
      if axis == XAxis then [" ", "[(", outer, ")^2 - (", inner, ")^2]", @" \, dx"]
      else [" ", @"x \cdot [(", outer, ") - (", inner, ")]", @" \, dx"];
    var head := Head(show, lo, hi, axis);
    HeadFacts(show, lo, hi, axis, tail);
    PartOccurs(tail, 2);
    PartOccurs(tail, 4);
    OccursInTail(head, tail, outer);
    OccursInTail(head, tail, inner);
    RunOccurs(tail, 1, 6);
    assert tail[1..6] == [tail[1], tail[2], tail[3], tail[4], tail[5]];
    Concat5(tail[1], tail[2], tail[3], tail[4], tail[5]);
    OccursInTail(head, tail, Concat(tail[1..6]));
    Concat(head + tail)
  }
}

=== FILE: expressions.dfy ===
/**
  What the three components share about user input: the expression evaluator
  and the axis selector.

  Each component has its own `evaluateFunction`, a try/catch around the
  library call `math.evaluate(funcStr, scope)` that returns NaN when the
  library throws. The library is outside this model, so an evaluator is a
  parameter about which nothing is assumed; NaN, the infinities and any
  finite value are all possible results.
 */
module Expressions {
  import opened JsNumber

  /** `evaluateFunction(funcStr, x)`: the library's value of the expression at x, NaN on failure */
  type Evaluator = (string, real) -> Num

  /** The one axis value that selects rotation about the x-axis; every other string means the y-axis. */
  const XAxis: string := "x-axis"
}

=== FILE: js_number.dfy ===
/**
  JavaScript numbers as the visualiser uses them, idealised to exact real
  arithmetic: a value is a finite real, one of the two infinities, or NaN.
  The special-value rules follow IEEE 754 (NaN absorbs everything, an infinity
  minus the same infinity is NaN, zero times an infinity is NaN); rounding,
  overflow and the sign of zero are not modelled.
 */
module JsNumber {

  datatype Num = Fin(val: real) | PosInf | NegInf | NaN

  /** `isNaN(n)` */
  predicate IsNaN(n: Num) {
    n.NaN?
  }

  /** `isFinite(n)`: neither NaN nor an infinity */
  predicate IsFinite(n: Num) {
    n.Fin?
  }

  /** True of the values that compare below zero, i.e. `n < 0` */
  predicate IsNegative(n: Num) {
    n.NegInf? || (n.Fin? && n.val < 0.0)
  }

  /** The real part of a finite number, 0 for the special values */
  function Re(n: Num): real {
    if n.Fin? then n.val else 0.0
  }

  /** `a < b`; every comparison with NaN is false */
  predicate Less(a: Num, b: Num) {
    match a
    case NaN => false
    case PosInf => false
    case NegInf => !b.NaN? && !b.NegInf?
    case Fin(x) => b.PosInf? || (b.Fin? && x < b.val)
  }

  lemma LessZeroIsNegative(n: Num)
    ensures Less(n, Fin(0.0)) <==> IsNegative(n)
  {
  }

  /** `-a` */
  function Neg(a: Num): (r: Num)
    ensures r.Fin? <==> a.Fin?
    ensures r.NaN? <==> a.NaN?
  {
    match a
    case Fin(x) => Fin(-x)
    case PosInf => NegInf
    case NegInf => PosInf
    case NaN => NaN
  }

  /** `a + b` */
  function Add(a: Num, b: Num): (r: Num)
    ensures r.Fin? <==> a.Fin? && b.Fin?
    ensures a.NaN? || b.NaN? ==> r.NaN?
    ensures a.Fin? && b.Fin? ==> r.val == a.val + b.val
  {
    if a.NaN? || b.NaN? then NaN
    else if (a.PosInf? && b.NegInf?) || (a.NegInf? && b.PosInf?) then NaN
    else if a.PosInf? || b.PosInf? then PosInf
    else if a.NegInf? || b.NegInf? then NegInf
    else Fin(a.val + b.val)
  }

  /** `a - b` */
  function Sub(a: Num, b: Num): (r: Num)
    ensures r.Fin? <==> a.Fin? && b.Fin?
    ensures a.NaN? || b.NaN? ==> r.NaN?
    ensures a.Fin? && b.Fin? ==> r.val == a.val - b.val
  {
    Add(a, Neg(b))
  }

  /** `a * b` */
  function Mul(a: Num, b: Num): (r: Num)
    ensures r.Fin? <==> a.Fin? && b.Fin?
    ensures a.NaN? || b.NaN? ==> r.NaN?
    ensures a.Fin? && b.Fin? ==> r.val == a.val * b.val
  {
    if a.NaN? || b.NaN? then NaN
    else if a.Fin? && b.Fin? then Fin(a.val * b.val)
    else if a == Fin(0.0) || b == Fin(0.0) then NaN
    else if IsNegative(a) == IsNegative(b) then PosInf
    else NegInf
  }

  /** Dividing by a non-zero d and multiplying back by d returns the original value. */
  lemma DivMul(x: real, d: real)
    requires d != 0.0
    ensures d * (x / d) == x
  {
  }

  /** Zero times anything is zero when the other factor is finite and NaN otherwise. */
  lemma MulZero(x: Num)
    ensures Mul(Fin(0.0), x) == (if x.Fin? then Fin(0.0) else NaN)
  {
  }

  /** Multiplying by a finite constant distributes over the difference of two finite numbers. */
  lemma MulSubFinite(c: real, p: Num, q: Num)
    requires p.Fin? && q.Fin?
    ensures Mul(Fin(c), Sub(p, q)) == Sub(Mul(Fin(c), p), Mul(Fin(c), q))
  {
    assert c * (p.val - q.val) == c * p.val - c * q.val;
  }

  /** Subtracting zero changes nothing, whatever the other operand is. */
  lemma SubZero(p: Num)
    ensures Sub(p, Fin(0.0)) == p
  {
  }
}

=== FILE: models3d.dfy ===
/**
  `RevolutionVisualizer`: the solid of revolution drawn as 50 slices.

  `createDiskModel` and `createWasherModel` cut [lowerBound, upperBound] into
  50 equal pieces, evaluate the radii at both ends of each piece, skip the
  pieces whose radii are unusable, and add one truncated-cone mesh per
  remaining piece, centred on the piece's midpoint along the chosen axis.
  Here a mesh is the record of the arguments its geometry was built from,
  and the group of meshes is the ascending sequence of emitted pieces.
 */
module Models3D {
  import opened JsNumber
  import opened Wrappers
  import opened Expressions

  /** `numDisks` and `numWashers` */
  const PieceCount: nat := 50

  /** The arguments of `new THREE.CylinderGeometry(radiusTop, radiusBottom, height, 32, 1, false)` */
  datatype Cylinder = Cylinder(radiusTop: Num, radiusBottom: Num, height: real)

  /** Where a mesh is centred: on the x-axis (rotated a quarter turn) or on the y-axis */
  datatype Placement = AlongX(x: real) | AlongY(y: real)

  /** One emitted slice: its loop index, the interval it spans, its geometry and its position */
  datatype Piece = Piece(index: nat, value: real, nextValue: real, mesh: Cylinder, place: Placement)

  /** Which model is being built */
  datatype Solid = Disk(expr: string) | Washer(outer: string, inner: string)

  /** The part of the visualiser's state the two builders change: the current group of meshes */
  datatype Visualizer = Visualizer(solid: Option<seq<Piece>>)

  /** `stepSize = (upperBound - lowerBound) / 50` */
  function SliceWidth(lo: real, hi: real): real {
    (hi - lo) / (PieceCount as real)
  }

  /** `value = lowerBound + i * stepSize` */
  function SliceStart(lo: real, hi: real, i: nat): real {
    lo + (i as real) * SliceWidth(lo, hi)
  }

  /** The coordinate along the rotation axis at which a mesh is centred */
  function Coordinate(p: Placement): real {
    match p
    case AlongX(x) => x
    case AlongY(y) => y
  }

  /** `position.x` for 'x-axis', `position.y` for every other axis string, both `value + stepSize / 2` */
  function Place(axis: string, value: real, step: real): (p: Placement)
    ensures p.AlongX? <==> axis == XAxis
  {
    if axis == XAxis then AlongX(value + step / 2.0) else AlongY(value + step / 2.0)
  }

  /** The disk loop's `continue` test: `isNaN(radius) || isNaN(nextRadius) || radius < 0 || nextRadius < 0` */
  predicate DiskSkipped(r1: Num, r2: Num) {
    IsNaN(r1) || IsNaN(r2) || Less(r1, Fin(0.0)) || Less(r2, Fin(0.0))
  }

  /** The washer loop's `continue` test: any of the four radii is NaN */
  predicate WasherSkipped(o1: Num, o2: Num, i1: Num, i2: Num) {
    IsNaN(o1) || IsNaN(o2) || IsNaN(i1) || IsNaN(i2)
  }

  /**
    `createWasherGeometry(outerRadius1, outerRadius2, innerRadius1, innerRadius2, height)`:
    the inner cylinder is built and then dropped, and the outer one is returned.
   */
  function WasherGeometry(o1: Num, o2: Num, i1: Num, i2: Num, height: real): (c: Cylinder)
    ensures c.radiusTop == o1 && c.radiusBottom == o2 && c.height == height
  {
    Cylinder(o1, o2, height)
  }

  /** The body of iteration i of either loop: the piece it adds, or None when it continues */
  function SliceAt(eval: Evaluator, solid: Solid, lo: real, hi: real, axis: string, i: nat): (r: Option<Piece>)
    ensures r.Some? ==> r.value.index == i && r.value.value == SliceStart(lo, hi, i)
    ensures r.Some? ==> r.value.nextValue == r.value.value + SliceWidth(lo, hi) && r.value.mesh.height == SliceWidth(lo, hi)
  {
    var step := SliceWidth(lo, hi);
    var value := SliceStart(lo, hi, i);
    var next := value + step;
    match solid
    case Disk(expr) =>
      var r1, r2 := eval(expr, value), eval(expr, next);
      if DiskSkipped(r1, r2) then None
      else Some(Piece(i, value, next, Cylinder(r1, r2, step), Place(axis, value, step)))
    case Washer(outer, inner) =>
      var o1, o2 := eval(outer, value), eval(outer, next);
      var i1, i2 := eval(inner, value), eval(inner, next);
      if WasherSkipped(o1, o2, i1, i2) then None
      else Some(Piece(i, value, next, WasherGeometry(o1, o2, i1, i2, step), Place(axis, value, step)))
  }

  /** What every iteration of the loop does, in loop order */
  function Iterations(eval: Evaluator, solid: Solid, lo: real, hi: real, axis: string): (its: seq<Option<Piece>>)
    ensures |its| == PieceCount
    ensures forall j :: 0 <= j < |its| ==> its[j] == SliceAt(eval, solid, lo, hi, axis, j)
  {
    seq(PieceCount, j requires 0 <= j => SliceAt(eval, solid, lo, hi, axis, j))
  }

  /** Each iteration that adds a piece labels it with its own loop index. */
  predicate WellIndexed(its: seq<Option<Piece>>) {
    forall j :: 0 <= j < |its| && its[j].Some? ==> its[j].value.index == j
  }

  lemma IterationsWellIndexed(eval: Evaluator, solid: Solid, lo: real, hi: real, axis: string)
    ensures WellIndexed(Iterations(eval, solid, lo, hi, axis))
  {
  }

  /**
    The pieces added by iterations i .. of the loop, in loop order: only
    iterations that do not skip contribute, each with its own piece.
   */
  function Collect(its: seq<Option<Piece>>, i: nat): (ps: seq<Piece>)
    requires i <= |its| && WellIndexed(its)
    decreases |its| - i
    ensures |ps| <= |its| - i
    ensures forall k :: 0 <= k < |ps| ==> i <= ps[k].index < |its| && its[ps[k].index] == Some(ps[k])
    ensures forall k, l :: 0 <= k < l < |ps| ==> ps[k].index < ps[l].index
  {
    if i == |its| then []
    else
      var rest := Collect(its, i + 1);
      match its[i]
      case None => rest
      case Some(p) => [p] + rest
  }

  /** Every iteration from i on that does not skip contributes its piece. */
  lemma {:induction false} CollectComplete(its: seq<Option<Piece>>, i: nat, j: nat)
    requires i <= j < |its| && WellIndexed(its) && its[j].Some?
    ensures its[j].value in Collect(its, i)
    decreases j - i
  {
    if i < j {
      CollectComplete(its, i + 1, j);
    }
  }

  /** The pieces of a whole model, the contents of the new group */
  function Model(eval: Evaluator, solid: Solid, lo: real, hi: real, axis: string): (ps: seq<Piece>)
    ensures |ps| <= PieceCount
    ensures forall k, l :: 0 <= k < l < |ps| ==> ps[k].index < ps[l].index
  {
    IterationsWellIndexed(eval, solid, lo, hi, axis);
    Collect(Iterations(eval, solid, lo, hi, axis), 0)
  }

  /** A piece is in the model exactly when its iteration adds it. */
  lemma ModelMembers(eval: Evaluator, solid: Solid, lo: real, hi: real, axis: string)
    ensures var ps := Model(eval, solid, lo, hi, axis);
      |ps| <= PieceCount &&
      (forall p :: p in ps ==> p.index < PieceCount && SliceAt(eval, solid, lo, hi, axis, p.index) == Some(p)) &&
      (forall j :: 0 <= j < PieceCount && SliceAt(eval, solid, lo, hi, axis, j).Some? ==>
        SliceAt(eval, solid, lo, hi, axis, j).value in ps)
  {
    var its := Iterations(eval, solid, lo, hi, axis);
    var ps := Model(eval, solid, lo, hi, axis);
    forall p | p in ps
      ensures p.index < PieceCount && SliceAt(eval, solid, lo, hi, axis, p.index) == Some(p)
    {
      var k :| 0 <= k < |ps| && ps[k] == p;
      assert its[p.index] == Some(p);
    }
    forall j | 0 <= j < PieceCount && SliceAt(eval, solid, lo, hi, axis, j).Some?
      ensures SliceAt(eval, solid, lo, hi, axis, j).value in ps
    {
      CollectComplete(its, 0, j);
    }
  }

  /** `createDiskModel(funcStr, lowerBound, upperBound, axis)`: the previous solid is discarded and a new group built */
  function CreateDiskModel(v: Visualizer, eval: Evaluator, expr: string, lo: real, hi: real, axis: string): (r: Visualizer)
    ensures r.solid == Some(Model(eval, Disk(expr), lo, hi, axis))
    ensures r.solid.Some? && |r.solid.value| <= PieceCount
    ensures forall p :: p in r.solid.value ==> !DiskSkipped(p.mesh.radiusTop, p.mesh.radiusBottom)
  {
    var ps := Model(eval, Disk(expr), lo, hi, axis);
    assert forall p :: p in ps ==> !DiskSkipped(p.mesh.radiusTop, p.mesh.radiusBottom) by {
      forall p | p in ps
        ensures !DiskSkipped(p.mesh.radiusTop, p.mesh.radiusBottom)
      {
        ModelMembers(eval, Disk(expr), lo, hi, axis);
      }
    }
    Visualizer(Some(ps))
  }

  /** `createWasherModel(outerFuncStr, innerFuncStr, lowerBound, upperBound, axis)` */
  function CreateWasherModel(v: Visualizer, eval: Evaluator, outer: string, inner: string, lo: real, hi: real, axis: string): (r: Visualizer)
    ensures r.solid == Some(Model(eval, Washer(outer, inner), lo, hi, axis))
    ensures r.solid.Some? && |r.solid.value| <= PieceCount
    ensures forall p :: p in r.solid.value ==> !IsNaN(p.mesh.radiusTop) && !IsNaN(p.mesh.radiusBottom)
  {
    var ps := Model(eval, Washer(outer, inner), lo, hi, axis);
    assert forall p :: p in ps ==> !IsNaN(p.mesh.radiusTop) && !IsNaN(p.mesh.radiusBottom) by {
      forall p | p in ps
        ensures !IsNaN(p.mesh.radiusTop) && !IsNaN(p.mesh.radiusBottom)
      {
        ModelMembers(eval, Washer(outer, inner), lo, hi, axis);
      }
    }
    Visualizer(Some(ps))
  }

  /** Each call builds its group from its arguments alone; the previous solid plays no part. */
  lemma ModelIgnoresPreviousSolid(v: Visualizer, v': Visualizer, eval: Evaluator, outer: string, inner: string, lo: real, hi: real, axis: string)
    ensures CreateDiskModel(v, eval, outer, lo, hi, axis) == CreateDiskModel(v', eval, outer, lo, hi, axis)
    ensures CreateWasherModel(v, eval, outer, inner, lo, hi, axis) == CreateWasherModel(v', eval, outer, inner, lo, hi, axis)
  {
  }

  /**
    A disk piece is drawn exactly when neither end radius is NaN or below
    zero; a radius of +Infinity is drawn.
   */
  lemma DiskKeptIff(eval: Evaluator, expr: string, lo: real, hi: real, axis: string, i: nat)
    requires i < PieceCount
    ensures
      var r1, r2 := eval(expr, SliceStart(lo, hi, i)), eval(expr, SliceStart(lo, hi, i) + SliceWidth(lo, hi));
      SliceAt(eval, Disk(expr), lo, hi, axis, i).Some? <==>
        (r1.PosInf? || (r1.Fin? && r1.val >= 0.0)) && (r2.PosInf? || (r2.Fin? && r2.val >= 0.0))
  {
    var r1, r2 := eval(expr, SliceStart(lo, hi, i)), eval(expr, SliceStart(lo, hi, i) + SliceWidth(lo, hi));
    LessZeroIsNegative(r1);
    LessZeroIsNegative(r2);
  }

  /** A washer piece is drawn exactly when none of its four radii is NaN: negative radii and inner above outer are drawn. */
  lemma WasherKeptIff(eval: Evaluator, outer: string, inner: string, lo: real, hi: real, axis: string, i: nat)
    requires i < PieceCount
    ensures
      var v, w := SliceStart(lo, hi, i), SliceStart(lo, hi, i) + SliceWidth(lo, hi);
      SliceAt(eval, Washer(outer, inner), lo, hi, axis, i).Some? <==>
        !eval(outer, v).NaN? && !eval(outer, w).NaN? && !eval(inner, v).NaN? && !eval(inner, w).NaN?
  {
  }

  /** Every drawn disk has radii that are non-negative numbers or +Infinity. */
  lemma DiskRadiiValid(eval: Evaluator, expr: string, lo: real, hi: real, axis: string)
    ensures forall p :: p in Model(eval, Disk(expr), lo, hi, axis) ==>
      (p.mesh.radiusTop.PosInf? || (p.mesh.radiusTop.Fin? && p.mesh.radiusTop.val >= 0.0)) &&
      (p.mesh.radiusBottom.PosInf? || (p.mesh.radiusBottom.Fin? && p.mesh.radiusBottom.val >= 0.0))
  {
    var ps := Model(eval, Disk(expr), lo, hi, axis);
    forall p | p in ps
      ensures p.mesh.radiusTop.PosInf? || (p.mesh.radiusTop.Fin? && p.mesh.radiusTop.val >= 0.0)
      ensures p.mesh.radiusBottom.PosInf? || (p.mesh.radiusBottom.Fin? && p.mesh.radiusBottom.val >= 0.0)
    {
      ModelMembers(eval, Disk(expr), lo, hi, axis);
      DiskKeptIff(eval, expr, lo, hi, axis, p.index);
    }
  }

  /**
    A piece laid out as slice `p.index` of [lo, hi]: it spans
    [lo + index * step, lo + index * step + step] with step = (hi - lo) / 50,
    has that step as its height, and is centred on the midpoint of the span,
    along x exactly when the axis is 'x-axis'.
   */
  predicate LaidOut(p: Piece, lo: real, hi: real, axis: string) {
    p.index < PieceCount &&
    p.value == lo + (p.index as real) * ((hi - lo) / 50.0) &&
    p.nextValue - p.value == (hi - lo) / 50.0 &&
    p.mesh.height == p.nextValue - p.value &&
    Coordinate(p.place) == (p.value + p.nextValue) / 2.0 &&
    (p.place.AlongX? <==> axis == XAxis)
  }

  /** The piece iteration i adds, if any, is laid out as slice i. */
  lemma SliceLayout(eval: Evaluator, solid: Solid, lo: real, hi: real, axis: string, i: nat)
    requires i < PieceCount && SliceAt(eval, solid, lo, hi, axis, i).Some?
    ensures SliceAt(eval, solid, lo, hi, axis, i).value.index == i
    ensures LaidOut(SliceAt(eval, solid, lo, hi, axis, i).value, lo, hi, axis)
  {
    var p := SliceAt(eval, solid, lo, hi, axis, i).value;
    var step := SliceWidth(lo, hi);
    assert p.value == SliceStart(lo, hi, i) && p.nextValue == p.value + step;
    assert Coordinate(p.place) == p.value + step / 2.0;
  }

  /** Every piece of a model is laid out as the slice its index names. */
  lemma PieceLayout(eval: Evaluator, solid: Solid, lo: real, hi: real, axis: string)
    ensures forall p :: p in Model(eval, solid, lo, hi, axis) ==> LaidOut(p, lo, hi, axis)
  {
    ModelMembers(eval, solid, lo, hi, axis);
    forall p | p in Model(eval, solid, lo, hi, axis)
      ensures LaidOut(p, lo, hi, axis)
    {
      SliceLayout(eval, solid, lo, hi, axis, p.index);
    }
  }

  /** The washer's mesh is the outer function's cylinder over the piece: the inner radii leave no trace. */
  lemma WasherMeshIsOuterCylinder(eval: Evaluator, outer: string, inner: string, lo: real, hi: real, axis: string)
    ensures forall p :: p in Model(eval, Washer(outer, inner), lo, hi, axis) ==>
      p.mesh == Cylinder(eval(outer, p.value), eval(outer, p.nextValue), p.nextValue - p.value)
  {
    var ps := Model(eval, Washer(outer, inner), lo, hi, axis);
    ModelMembers(eval, Washer(outer, inner), lo, hi, axis);
    forall p | p in ps
      ensures p.mesh == Cylinder(eval(outer, p.value), eval(outer, p.nextValue), p.nextValue - p.value)
    {
      WasherSliceMesh(eval, outer, inner, lo, hi, axis, p.index);
    }
  }

  lemma WasherSliceMesh(eval: Evaluator, outer: string, inner: string, lo: real, hi: real, axis: string, i: nat)
    ensures var s := SliceAt(eval, Washer(outer, inner), lo, hi, axis, i);
      s.Some? ==> s.value.mesh == Cylinder(eval(outer, s.value.value), eval(outer, s.value.nextValue), s.value.nextValue - s.value.value)
  {
  }

  /**
    Where the outer function's disk piece is drawn and the inner radii are not
    NaN, the washer piece is drawn too, with the very same mesh and position.
   */
  lemma WasherCoversOuterDisk(eval: Evaluator, outer: string, inner: string, lo: real, hi: real, axis: string, i: nat)
    requires i < PieceCount
    requires SliceAt(eval, Disk(outer), lo, hi, axis, i).Some?
    requires !eval(inner, SliceStart(lo, hi, i)).NaN? && !eval(inner, SliceStart(lo, hi, i) + SliceWidth(lo, hi)).NaN?
    ensures SliceAt(eval, Washer(outer, inner), lo, hi, axis, i) == SliceAt(eval, Disk(outer), lo, hi, axis, i)
  {
  }

  /** One piece ends where the next loop index's piece starts. */
  lemma SliceStartNext(lo: real, hi: real, i: nat)
    ensures SliceStart(lo, hi, i) + SliceWidth(lo, hi) == SliceStart(lo, hi, i + 1)
  {
    var h := SliceWidth(lo, hi);
    assert (i as real) * h + h == ((i + 1) as real) * h;
  }

  /** Pieces of consecutive loop indices are contiguous: each ends where the next one begins. */
  lemma Contiguous(eval: Evaluator, solid: Solid, lo: real, hi: real, axis: string)
    ensures var ps := Model(eval, solid, lo, hi, axis);
      forall k :: 0 <= k < |ps| - 1 && ps[k].index + 1 == ps[k + 1].index ==> ps[k].nextValue == ps[k + 1].value
  {
    var ps := Model(eval, solid, lo, hi, axis);
    ModelMembers(eval, solid, lo, hi, axis);
    forall k | 0 <= k < |ps| - 1 && ps[k].index + 1 == ps[k + 1].index
      ensures ps[k].nextValue == ps[k + 1].value
    {
      var i := ps[k].index;
      assert ps[k] in ps && ps[k + 1] in ps;
      assert ps[k].nextValue == SliceStart(lo, hi, i) + SliceWidth(lo, hi);
      assert ps[k + 1].value == SliceStart(lo, hi, i + 1);
      SliceStartNext(lo, hi, i);
    }
  }

  lemma StartsIncrease(lo: real, hi: real, i: nat, j: nat)
    requires lo < hi && i < j
    ensures SliceStart(lo, hi, i) < SliceStart(lo, hi, j)
  {
    var h := SliceWidth(lo, hi);
    assert h > 0.0;
    assert (j as real) * h - (i as real) * h == ((j - i) as real) * h;
  }

  /** For a non-empty interval, later pieces sit strictly further along the axis. */
  lemma PositionsAscending(eval: Evaluator, solid: Solid, lo: real, hi: real, axis: string)
    requires lo < hi
    ensures var ps := Model(eval, solid, lo, hi, axis);
      forall k, l :: 0 <= k < l < |ps| ==> Coordinate(ps[k].place) < Coordinate(ps[l].place)
  {
    var ps := Model(eval, solid, lo, hi, axis);
    forall k, l | 0 <= k < l < |ps|
      ensures Coordinate(ps[k].place) < Coordinate(ps[l].place)
    {
      ModelMembers(eval, solid, lo, hi, axis);
      assert ps[k] in ps && ps[l] in ps;
      StartsIncrease(lo, hi, ps[k].index, ps[l].index);
    }
  }

  /** When no iteration from i on skips, those iterations add one piece each, in index order. */
  lemma {:induction false} NoSkipsCollectsAll(its: seq<Option<Piece>>, i: nat)
    requires i <= |its| && WellIndexed(its)
    requires forall j :: i <= j < |its| ==> its[j].Some?
    ensures var ps := Collect(its, i);
      |ps| == |its| - i && forall k :: 0 <= k < |ps| ==> ps[k].index == i + k
    decreases |its| - i
  {
    if i < |its| {
      NoSkipsCollectsAll(its, i + 1);
      var rest := Collect(its, i + 1);
      var ps := Collect(its, i);
      assert ps == [its[i].value] + rest;
      assert its[i].value.index == i;
      forall k | 0 <= k < |ps|
        ensures ps[k].index == i + k
      {
        if k > 0 {
          assert ps[k] == rest[k - 1];
        }
      }
    }
  }

  /** When no iteration skips, the model has all 50 pieces, piece k from iteration k. */
  lemma NoSkipsGivesEveryPiece(eval: Evaluator, solid: Solid, lo: real, hi: real, axis: string)
    requires forall j :: 0 <= j < PieceCount ==> SliceAt(eval, solid, lo, hi, axis, j).Some?
    ensures var ps := Model(eval, solid, lo, hi, axis);
      |ps| == PieceCount && forall k :: 0 <= k < |ps| ==> ps[k].index == k
  {
    IterationsWellIndexed(eval, solid, lo, hi, axis);
    NoSkipsCollectsAll(Iterations(eval, solid, lo, hi, axis), 0);
  }
}

=== FILE: plot.dfy ===
/**
  `FunctionPlotter`: the 2D chart beside each method.

  `plotFunction` steps x from xMin by `(xMax - xMin) / steps` while
  `x <= xMax`, keeps the points whose y is a finite number, and appends one
  dataset to the chart. `plotRegion` plots two curves that way and then
  samples both functions once more to build the top (max) and bottom (min)
  outlines of the region between them.

  Chart.js is represented by the list of datasets and the axis bounds it is
  given; colours, fills and line styling are not modelled. Options use
  JavaScript's `||` defaulting: an absent option and a falsy one (0, "")
  both fall back to the default.
 */
module Plot {
  import opened JsNumber
  import opened Wrappers
  import opened Expressions

  /** `options.steps || 100` */
  const DefaultSteps: int := 100

  /** A chart point `{ x, y }` */
  datatype Point = Point(x: real, y: real)

  /** A point of the filled region before it is split into outlines: `{ x, y1, y2 }` */
  datatype RegionPoint = RegionPoint(x: real, y1: real, y2: real)

  /** A chart dataset: its `label` (here `caption`) and its points */
  datatype Dataset = Dataset(caption: string, data: seq<Point>)

  /** xMin, xMax, yMin, yMax, as kept in `this.options` and in the chart's scales */
  datatype Bounds = Bounds(xMin: real, xMax: real, yMin: real, yMax: real)

  /** The plotter: its default bounds, the chart's axis bounds and the chart's datasets */
  datatype Plotter = Plotter(options: Bounds, scales: Bounds, datasets: seq<Dataset>)

  /** The options `plotFunction` reads; None is an absent property */
  datatype PlotOptions = PlotOptions(clear: bool, caption: Option<string>, xMin: Option<real>, xMax: Option<real>, steps: Option<int>)

  /** The options `plotRegion` reads */
  datatype RegionOptions = RegionOptions(clear: bool, caption1: Option<string>, caption2: Option<string>,
                                         xMin: Option<real>, xMax: Option<real>, steps: Option<int>)

  /** A call either returns or never leaves its sampling loop. */
  datatype Outcome<T> = Returns(value: T) | Hangs

  /** What `plotFunction` leaves behind: the updated plotter and the returned data */
  datatype Drawn = Drawn(plotter: Plotter, data: seq<Point>)

  /** `o || d` for a number: absent and 0 are falsy */
  function OrReal(o: Option<real>, d: real): (r: real)
    ensures o.Some? && o.value != 0.0 ==> r == o.value
    ensures o.None? || o.value == 0.0 ==> r == d
  {
    if o.Some? && o.value != 0.0 then o.value else d
  }

  /** `o || d` for an integer count */
  function OrInt(o: Option<int>, d: int): (r: int)
    ensures o.Some? && o.value != 0 ==> r == o.value
    ensures o.None? || o.value == 0 ==> r == d
    ensures d != 0 ==> r != 0
  {
    if o.Some? && o.value != 0 then o.value else d
  }

  /** `o || d` for a string: absent and "" are falsy */
  function OrString(o: Option<string>, d: string): (r: string)
    ensures o.Some? && o.value != "" ==> r == o.value
    ensures o.None? || o.value == "" ==> r == d
    ensures d != "" ==> r != ""
  {
    if o.Some? && o.value != "" then o.value else d
  }

  /** An explicit bound of 0 is indistinguishable from an absent one: both give the default. */
  lemma ExplicitZeroIsReplaced(d: real)
    ensures OrReal(Some(0.0), d) == d && OrReal(None, d) == d
  {
  }

  /** Passing an already defaulted bound through `||` again, as `plotRegion` does, changes nothing. */
  lemma OrRealIdempotent(o: Option<real>, d: real)
    ensures OrReal(Some(OrReal(o, d)), d) == OrReal(o, d)
  {
  }

  /**
    `new FunctionPlotter(containerId, options)`: `Object.assign` over the
    defaults -5, 5, -5, 5 keeps every given bound, 0 included; the chart starts
    with those bounds and no datasets.
   */
  function NewPlotter(xMin: Option<real>, xMax: Option<real>, yMin: Option<real>, yMax: Option<real>): (r: Plotter)
    ensures r.scales == r.options && r.datasets == []
    ensures xMin.Some? ==> r.options.xMin == xMin.value
    ensures xMin.None? ==> r.options.xMin == -5.0
    ensures xMax.Some? ==> r.options.xMax == xMax.value
    ensures xMax.None? ==> r.options.xMax == 5.0
    ensures yMin.Some? ==> r.options.yMin == yMin.value
    ensures yMin.None? ==> r.options.yMin == -5.0
    ensures yMax.Some? ==> r.options.yMax == yMax.value
    ensures yMax.None? ==> r.options.yMax == 5.0
  {
    var b := Bounds(Assigned(xMin, -5.0), Assigned(xMax, 5.0), Assigned(yMin, -5.0), Assigned(yMax, 5.0));
    Plotter(b, b, [])
  }

  /** `Object.assign` of one property: a present value wins, whatever it is */
  function Assigned(o: Option<real>, d: real): real {
    if o.Some? then o.value else d
  }

  /** `updateBounds(xMin, xMax, yMin, yMax)` */
  function UpdateBounds(pl: Plotter, xMin: real, xMax: real, yMin: real, yMax: real): (r: Plotter)
    ensures r.options == Bounds(xMin, xMax, yMin, yMax)
    ensures r.scales == r.options
    ensures r.datasets == pl.datasets
  {
    var b := Bounds(xMin, xMax, yMin, yMax);
    Plotter(b, b, pl.datasets)
  }

  /** A later `updateBounds` completely overrides an earlier one. */
  lemma UpdateBoundsOverrides(pl: Plotter, b1: Bounds, b2: Bounds)
    ensures UpdateBounds(UpdateBounds(pl, b1.xMin, b1.xMax, b1.yMin, b1.yMax), b2.xMin, b2.xMax, b2.yMin, b2.yMax)
         == UpdateBounds(pl, b2.xMin, b2.xMax, b2.yMin, b2.yMax)
  {
  }

  /** The datasets left after the optional `clear` */
  function Cleared(pl: Plotter, clear: bool): seq<Dataset> {
    if clear then [] else pl.datasets
  }

  // ---------------------------------------------------------------------
  // The sampling loop `for (let x = xMin; x <= xMax; x += stepSize)`
  // ---------------------------------------------------------------------

  /** `stepSize = (xMax - xMin) / steps` */
  function StepSize(xMin: real, xMax: real, steps: int): (h: real)
    requires steps != 0
    ensures xMin + (steps as real) * h == xMax
  {
    DivMul(xMax - xMin, steps as real);
    (xMax - xMin) / (steps as real)
  }

  /**
    The loop ends: either it never starts (xMin > xMax) or x climbs past xMax.
    With xMin == xMax the step is 0, and with a negative steps count it is
    negative, so x stays at or below xMax for ever.
   */
  predicate Terminates(xMin: real, xMax: real, steps: int) {
    xMin > xMax || (xMin < xMax && steps > 0)
  }

  /** The x of the loop after k increments, accumulated as the loop does */
  function LoopX(xMin: real, stepSize: real, k: nat): real {
    if k == 0 then xMin else LoopX(xMin, stepSize, k - 1) + stepSize
  }

  /** The k-th sample position `xMin + k * stepSize` */
  function GridPoint(xMin: real, xMax: real, steps: int, k: nat): real
    requires steps != 0
  {
    xMin + (k as real) * StepSize(xMin, xMax, steps)
  }

  /** The x values the loop visits when it ends: none when xMin > xMax, else steps + 1 of them */
  function Grid(xMin: real, xMax: real, steps: int): (xs: seq<real>)
    requires Terminates(xMin, xMax, steps)
    ensures |xs| == if xMin > xMax then 0 else steps + 1
  {
    if xMin > xMax then []
    else seq(steps + 1, k requires 0 <= k <= steps => GridPoint(xMin, xMax, steps, k))
  }

  lemma MulStep(x: real, h: real, k: real)
    ensures x + k * h + h == x + (k + 1.0) * h
  {
  }

  lemma ScaledWithin(k: real, n: real, h: real)
    requires 0.0 <= k <= n && h > 0.0
    ensures 0.0 <= k * h <= n * h
  {
  }

  lemma ScaledIncreasing(k: real, l: real, h: real)
    requires k < l && h > 0.0
    ensures k * h < l * h
  {
  }

  /** The loop's accumulated x is the k-th grid point. */
  lemma {:induction false} LoopXIsGridPoint(xMin: real, xMax: real, steps: int, k: nat)
    requires steps != 0
    ensures LoopX(xMin, StepSize(xMin, xMax, steps), k) == GridPoint(xMin, xMax, steps, k)
  {
    if k > 0 {
      var h := StepSize(xMin, xMax, steps);
      LoopXIsGridPoint(xMin, xMax, steps, k - 1);
      assert LoopX(xMin, h, k) == LoopX(xMin, h, k - 1) + h;
      assert GridPoint(xMin, xMax, steps, k - 1) == xMin + ((k - 1) as real) * h;
      MulStep(xMin, h, (k - 1) as real);
      assert ((k - 1) as real) + 1.0 == k as real;
    }
  }

  /** When the loop does not terminate, x never passes xMax, whatever the number of rounds. */
  lemma {:induction false} LoopNeverExits(xMin: real, xMax: real, steps: int, k: nat)
    requires steps != 0 && !Terminates(xMin, xMax, steps)
    ensures LoopX(xMin, StepSize(xMin, xMax, steps), k) <= xMin <= xMax
  {
    if k > 0 {
      LoopNeverExits(xMin, xMax, steps, k - 1);
      var h := StepSize(xMin, xMax, steps);
      if xMin == xMax {
        assert h == 0.0;
      } else {
        assert steps < 0;
        assert h < 0.0;
      }
    }
  }

  /** One `x += stepSize` moves from a grid x to the next one, or past xMax from the last one. */
  lemma GridStep(xMin: real, xMax: real, steps: int, k: nat)
    requires steps != 0 && Terminates(xMin, xMax, steps) && k < |Grid(xMin, xMax, steps)|
    ensures var xs := Grid(xMin, xMax, steps);
      (k + 1 < |xs| ==> xs[k] + StepSize(xMin, xMax, steps) == xs[k + 1]) &&
      (k + 1 == |xs| ==> xs[k] + StepSize(xMin, xMax, steps) > xMax)
  {
    GridPointNext(xMin, xMax, steps, k);
    if k + 1 == |Grid(xMin, xMax, steps)| {
      GridOvershoots(xMin, xMax, steps);
    }
  }

  /** Grid points lie in [xMin, xMax], start at xMin, end at xMax and strictly increase. */
  lemma GridPointBounds(xMin: real, xMax: real, steps: int, k: nat)
    requires xMin < xMax && steps > 0 && k <= steps
    ensures xMin <= GridPoint(xMin, xMax, steps, k) <= xMax
    ensures k == 0 ==> GridPoint(xMin, xMax, steps, k) == xMin
    ensures k == steps ==> GridPoint(xMin, xMax, steps, k) == xMax
  {
    var h := StepSize(xMin, xMax, steps);
    DivMul(xMax - xMin, steps as real);
    assert h > 0.0;
    ScaledWithin(k as real, steps as real, h);
  }

  lemma GridPointIncreasing(xMin: real, xMax: real, steps: int, k: nat, l: nat)
    requires xMin < xMax && steps > 0 && k < l
    ensures GridPoint(xMin, xMax, steps, k) < GridPoint(xMin, xMax, steps, l)
  {
    var h := StepSize(xMin, xMax, steps);
    assert h > 0.0;
    ScaledIncreasing(k as real, l as real, h);
  }

  /** One step past the last grid point lies beyond xMax. */
  lemma GridOvershoots(xMin: real, xMax: real, steps: int)
    requires xMin < xMax && steps > 0
    ensures GridPoint(xMin, xMax, steps, steps) + StepSize(xMin, xMax, steps) > xMax
  {
    GridPointBounds(xMin, xMax, steps, steps);
  }

  lemma GridPointNext(xMin: real, xMax: real, steps: int, k: nat)
    requires steps != 0
    ensures GridPoint(xMin, xMax, steps, k) + StepSize(xMin, xMax, steps) == GridPoint(xMin, xMax, steps, k + 1)
  {
    MulStep(xMin, StepSize(xMin, xMax, steps), k as real);
  }

  /** The visited x values start at xMin, strictly increase and stay within [xMin, xMax]. */
  lemma GridShape(xMin: real, xMax: real, steps: int)
    requires Terminates(xMin, xMax, steps)
    ensures var xs := Grid(xMin, xMax, steps);
      (xMin <= xMax ==> |xs| == steps + 1 && xs[0] == xMin && xs[|xs| - 1] == xMax) &&
      (forall k :: 0 <= k < |xs| ==> xMin <= xs[k] <= xMax) &&
      (forall k, l :: 0 <= k < l < |xs| ==> xs[k] < xs[l])
  {
    var xs := Grid(xMin, xMax, steps);
    if xMin <= xMax {
      GridPointBounds(xMin, xMax, steps, 0);
      GridPointBounds(xMin, xMax, steps, steps);
      forall k | 0 <= k < |xs|
        ensures xMin <= xs[k] <= xMax
      {
        GridPointBounds(xMin, xMax, steps, k);
      }
      forall k, l | 0 <= k < l < |xs|
        ensures xs[k] < xs[l]
      {
        assert xs[k] == GridPoint(xMin, xMax, steps, k) && xs[l] == GridPoint(xMin, xMax, steps, l);
        GridPointIncreasing(xMin, xMax, steps, k, l);
      }
    }
  }

  // ---------------------------------------------------------------------
  // Filtering, as the loop bodies do it
  // ---------------------------------------------------------------------

  /** `!isNaN(y) && isFinite(y)` */
  predicate Plottable(y: Num) {
    !IsNaN(y) && IsFinite(y)
  }

  /** The points `plotFunction` pushes while visiting xs in order */
  function KeepFinite(eval: Evaluator, expr: string, xs: seq<real>): (ps: seq<Point>)
    ensures |ps| <= |xs|
    ensures forall p :: p in ps ==> p.x in xs && eval(expr, p.x) == Fin(p.y)
    ensures forall x :: x in xs && eval(expr, x).Fin? ==> Point(x, eval(expr, x).val) in ps
    decreases |xs|
  {
    if |xs| == 0 then []
    else
      var x := xs[|xs| - 1];
      var rest := KeepFinite(eval, expr, xs[..|xs| - 1]);
      var y := eval(expr, x);
      if Plottable(y) then rest + [Point(x, y.val)] else rest
  }

  /** The x values of the points strictly increase. */
  predicate AscendingX(ps: seq<Point>) {
    forall k, l :: 0 <= k < l < |ps| ==> ps[k].x < ps[l].x
  }

  /** Visiting ascending x values yields points with ascending x values. */
  lemma {:induction false} KeepFiniteAscending(eval: Evaluator, expr: string, xs: seq<real>)
    requires forall k, l :: 0 <= k < l < |xs| ==> xs[k] < xs[l]
    ensures AscendingX(KeepFinite(eval, expr, xs))
    decreases |xs|
  {
    if |xs| > 0 {
      var front := xs[..|xs| - 1];
      KeepFiniteAscending(eval, expr, front);
      var rest := KeepFinite(eval, expr, front);
      var last := xs[|xs| - 1];
      forall p | p in rest
        ensures p.x < last
      {
        var k :| 0 <= k < |front| && front[k] == p.x;
        assert xs[k] < last;
      }
      var ps := KeepFinite(eval, expr, xs);
      if Plottable(eval(expr, last)) {
        assert ps == rest + [Point(last, eval(expr, last).val)];
        forall k, l | 0 <= k < l < |ps|
          ensures ps[k].x < ps[l].x
        {
          if l == |rest| {
            assert ps[k] == rest[k] && ps[l].x == last;
            assert rest[k] in rest;
            assert rest[k].x < last;
          } else {
            assert ps[k] == rest[k] && ps[l] == rest[l];
            assert rest[k].x < rest[l].x;
          }
        }
      }
    }
  }

  /** Visiting ascending x values whose first has a finite value makes that value the first point. */
  lemma KeepFiniteStartsWithFirst(eval: Evaluator, expr: string, xs: seq<real>)
    requires forall k, l :: 0 <= k < l < |xs| ==> xs[k] < xs[l]
    requires |xs| > 0 && eval(expr, xs[0]).Fin?
    ensures var ps := KeepFinite(eval, expr, xs);
      |ps| > 0 && ps[0] == Point(xs[0], eval(expr, xs[0]).val)
  {
    var ps := KeepFinite(eval, expr, xs);
    KeepFiniteAscending(eval, expr, xs);
    var first := Point(xs[0], eval(expr, xs[0]).val);
    assert first in ps;
    var j :| 0 <= j < |ps| && ps[j] == first;
    assert ps[0] in ps;
    assert j == 0;
  }

  /** Visiting x values inside [lo, hi] yields points inside [lo, hi]. */
  lemma KeepFiniteWithin(eval: Evaluator, expr: string, xs: seq<real>, lo: real, hi: real)
    requires forall k :: 0 <= k < |xs| ==> lo <= xs[k] <= hi
    ensures forall p :: p in KeepFinite(eval, expr, xs) ==> lo <= p.x <= hi
  {
    forall p | p in KeepFinite(eval, expr, xs)
      ensures lo <= p.x <= hi
    {
      var k :| 0 <= k < |xs| && xs[k] == p.x;
    }
  }

  /** The region points the region loop pushes: both functions finite */
  function KeepBothFinite(eval: Evaluator, f1: string, f2: string, xs: seq<real>): (ts: seq<RegionPoint>)
    ensures |ts| <= |xs|
    ensures forall t :: t in ts ==> t.x in xs && eval(f1, t.x) == Fin(t.y1) && eval(f2, t.x) == Fin(t.y2)
    ensures forall x :: x in xs && eval(f1, x).Fin? && eval(f2, x).Fin? ==>
      RegionPoint(x, eval(f1, x).val, eval(f2, x).val) in ts
    decreases |xs|
  {
    if |xs| == 0 then []
    else
      var x := xs[|xs| - 1];
      var rest := KeepBothFinite(eval, f1, f2, xs[..|xs| - 1]);
      var y1, y2 := eval(f1, x), eval(f2, x);
      if !IsNaN(y1) && !IsNaN(y2) && IsFinite(y1) && IsFinite(y2) then rest + [RegionPoint(x, y1.val, y2.val)]
      else rest
  }

  /** `Math.max` and `Math.min` of two finite numbers */
  function Max(a: real, b: real): real {
    if a >= b then a else b
  }

  function Min(a: real, b: real): real {
    if a <= b then a else b
  }

  /** The 'Region' outline: `filledRegion.map(point => ({ x: point.x, y: Math.max(point.y1, point.y2) }))` */
  function Top(ts: seq<RegionPoint>): (ps: seq<Point>)
    ensures |ps| == |ts|
  {
    seq(|ts|, k requires 0 <= k < |ts| => Point(ts[k].x, Max(ts[k].y1, ts[k].y2)))
  }

  /** The 'Region Bottom' outline, with `Math.min` */
  function Bottom(ts: seq<RegionPoint>): (ps: seq<Point>)
    ensures |ps| == |ts|
  {
    seq(|ts|, k requires 0 <= k < |ts| => Point(ts[k].x, Min(ts[k].y1, ts[k].y2)))
  }

  /** The outlines share their x values, the top is never below the bottom, and together they are the two curves' values. */
  lemma OutlinesBracket(ts: seq<RegionPoint>)
    ensures var top, bottom := Top(ts), Bottom(ts);
      forall k :: 0 <= k < |ts| ==>
        top[k].x == bottom[k].x == ts[k].x &&
        bottom[k].y <= top[k].y &&
        ((top[k].y == ts[k].y1 && bottom[k].y == ts[k].y2) || (top[k].y == ts[k].y2 && bottom[k].y == ts[k].y1))
  {
  }

  /** One more visited x extends the curve data by that x's point when its value is finite. */
  lemma KeepFiniteExtend(eval: Evaluator, expr: string, xs: seq<real>, k: nat)
    requires k < |xs|
    ensures KeepFinite(eval, expr, xs[..k + 1]) ==
      KeepFinite(eval, expr, xs[..k]) + (if Plottable(eval(expr, xs[k])) then [Point(xs[k], eval(expr, xs[k]).val)] else [])
  {
    assert xs[..k + 1][..k] == xs[..k];
  }

  /** One more visited x extends the region data by that x's point when both values are finite. */
  lemma KeepBothFiniteExtend(eval: Evaluator, f1: string, f2: string, xs: seq<real>, k: nat)
    requires k < |xs|
    ensures var y1, y2 := eval(f1, xs[k]), eval(f2, xs[k]);
      KeepBothFinite(eval, f1, f2, xs[..k + 1]) ==
      KeepBothFinite(eval, f1, f2, xs[..k]) + (if Plottable(y1) && Plottable(y2) then [RegionPoint(xs[k], y1.val, y2.val)] else [])
  {
    assert xs[..k + 1][..k] == xs[..k];
  }

  // ---------------------------------------------------------------------
  // The loops
  // ---------------------------------------------------------------------

  /** The loop of `plotFunction`, run as written; it ends because the grid is finite. */
  method SampleFunction(eval: Evaluator, expr: string, xMin: real, xMax: real, steps: int) returns (data: seq<Point>)
    requires steps != 0 && Terminates(xMin, xMax, steps)
    ensures data == KeepFinite(eval, expr, Grid(xMin, xMax, steps))
  {
    var stepSize := StepSize(xMin, xMax, steps);
    ghost var xs := Grid(xMin, xMax, steps);
    ghost var k: nat := 0;
    data := [];
    var x := xMin;
    if xMin <= xMax {
      GridPointBounds(xMin, xMax, steps, 0);
    }
    while x <= xMax
      invariant k <= |xs|
      invariant k < |xs| ==> x == xs[k]
      invariant k == |xs| ==> x > xMax
      invariant data == KeepFinite(eval, expr, xs[..k])
      decreases |xs| - k
    {
      var y := eval(expr, x);
      KeepFiniteExtend(eval, expr, xs, k);
      if !IsNaN(y) && IsFinite(y) {
        data := data + [Point(x, y.val)];
      }
      GridStep(xMin, xMax, steps, k);
      x := x + stepSize;
      k := k + 1;
    }
    if k < |xs| {
      GridPointBounds(xMin, xMax, steps, k);
    }
    assert xs[..k] == xs;
  }

  /** The loop of `plotRegion` that collects the points where both functions are finite */
  method SampleRegion(eval: Evaluator, f1: string, f2: string, xMin: real, xMax: real, steps: int) returns (region: seq<RegionPoint>)
    requires steps != 0 && Terminates(xMin, xMax, steps)
    ensures region == KeepBothFinite(eval, f1, f2, Grid(xMin, xMax, steps))
  {
    var stepSize := StepSize(xMin, xMax, steps);
    ghost var xs := Grid(xMin, xMax, steps);
    ghost var k: nat := 0;
    region := [];
    var x := xMin;
    if xMin <= xMax {
      GridPointBounds(xMin, xMax, steps, 0);
    }
    while x <= xMax
      invariant k <= |xs|
      invariant k < |xs| ==> x == xs[k]
      invariant k == |xs| ==> x > xMax
      invariant region == KeepBothFinite(eval, f1, f2, xs[..k])
      decreases |xs| - k
    {
      var y1 := eval(f1, x);
      var y2 := eval(f2, x);
      KeepBothFiniteExtend(eval, f1, f2, xs, k);
      if !IsNaN(y1) && !IsNaN(y2) && IsFinite(y1) && IsFinite(y2) {
        region := region + [RegionPoint(x, y1.val, y2.val)];
      }
      GridStep(xMin, xMax, steps, k);
      x := x + stepSize;
      k := k + 1;
    }
    if k < |xs| {
      GridPointBounds(xMin, xMax, steps, k);
    }
    assert xs[..k] == xs;
  }

  // ---------------------------------------------------------------------
  // The plotter's operations
  // ---------------------------------------------------------------------

  /** The x range and step count `plotFunction` uses for the given options */
  function FunctionRange(pl: Plotter, opts: PlotOptions): (real, real, int) {
    (OrReal(opts.xMin, pl.options.xMin), OrReal(opts.xMax, pl.options.xMax), OrInt(opts.steps, DefaultSteps))
  }

  /**
    `plotFunction(funcStr, options)`: optionally clears the chart, samples the
    function and appends exactly one dataset holding the returned data.
   */
  method PlotFunction(pl: Plotter, eval: Evaluator, expr: string, opts: PlotOptions) returns (out: Outcome<Drawn>)
    ensures var (lo, hi, n) := FunctionRange(pl, opts);
      (out.Hangs? <==> !Terminates(lo, hi, n)) &&
      (out.Returns? ==>
        out.value.data == KeepFinite(eval, expr, Grid(lo, hi, n)) &&
        out.value.plotter.options == pl.options &&
        out.value.plotter.scales == pl.scales &&
        out.value.plotter.datasets == Cleared(pl, opts.clear) + [Dataset(OrString(opts.caption, "f(x)"), out.value.data)])
  {
    var (lo, hi, n) := FunctionRange(pl, opts);
    if !Terminates(lo, hi, n) {
      return Hangs;
    }
    var data := SampleFunction(eval, expr, lo, hi, n);
    var datasets := Cleared(pl, opts.clear) + [Dataset(OrString(opts.caption, "f(x)"), data)];
    return Returns(Drawn(pl.(datasets := datasets), data));
  }

  /** The x range `plotRegion` uses for the given options */
  function RegionRange(pl: Plotter, opts: RegionOptions): (real, real) {
    (OrReal(opts.xMin, pl.options.xMin), OrReal(opts.xMax, pl.options.xMax))
  }

  /**
    `plotRegion(func1Str, func2Str, options)`: optionally clears the chart,
    plots both curves with the default 100 steps over the region's range,
    then samples both functions with `options.steps || 100` steps and appends
    the 'Region' (max) and 'Region Bottom' (min) outlines.
   */
  method PlotRegion(pl: Plotter, eval: Evaluator, f1: string, f2: string, opts: RegionOptions) returns (out: Outcome<Plotter>)
    ensures var (lo, hi) := RegionRange(pl, opts);
      var n := OrInt(opts.steps, DefaultSteps);
      (out.Hangs? <==> !Terminates(lo, hi, DefaultSteps) || !Terminates(lo, hi, n)) &&
      (out.Returns? ==>
        var ts := KeepBothFinite(eval, f1, f2, Grid(lo, hi, n));
        out.value.options == pl.options &&
        out.value.scales == pl.scales &&
        out.value.datasets == Cleared(pl, opts.clear) + [
          Dataset(OrString(opts.caption1, "f(x)"), KeepFinite(eval, f1, Grid(lo, hi, DefaultSteps))),
          Dataset(OrString(opts.caption2, "g(x)"), KeepFinite(eval, f2, Grid(lo, hi, DefaultSteps))),
          Dataset("Region", Top(ts)),
          Dataset("Region Bottom", Bottom(ts))])
  {
    var start := pl.(datasets := Cleared(pl, opts.clear));
    var (lo, hi) := RegionRange(pl, opts);
    OrRealIdempotent(opts.xMin, pl.options.xMin);
    OrRealIdempotent(opts.xMax, pl.options.xMax);
    var first := PlotFunction(start, eval, f1, PlotOptions(false, Some(OrString(opts.caption1, "f(x)")), Some(lo), Some(hi), None));
    if first.Hangs? {
      return Hangs;
    }
    var second := PlotFunction(first.value.plotter, eval, f2, PlotOptions(false, Some(OrString(opts.caption2, "g(x)")), Some(lo), Some(hi), None));
    if second.Hangs? {
      return Hangs;
    }
    var n := OrInt(opts.steps, DefaultSteps);
    if !Terminates(lo, hi, n) {
      return Hangs;
    }
    var region := SampleRegion(eval, f1, f2, lo, hi, n);
    var after := second.value.plotter;
    return Returns(after.(datasets := after.datasets + [Dataset("Region", Top(region)), Dataset("Region Bottom", Bottom(region))]));
  }

  // ---------------------------------------------------------------------
  // Properties of the sampled data
  // ---------------------------------------------------------------------

  /** With `xMin > xMax` the loop never runs and the curve has no data. */
  lemma FunctionDataEmpty(eval: Evaluator, expr: string, xMin: real, xMax: real, steps: int)
    requires xMin > xMax
    ensures KeepFinite(eval, expr, Grid(xMin, xMax, steps)) == []
  {
  }

  /** The curve has at most steps + 1 points. */
  lemma FunctionDataCount(eval: Evaluator, expr: string, xMin: real, xMax: real, steps: int)
    requires xMin < xMax && steps > 0
    ensures |KeepFinite(eval, expr, Grid(xMin, xMax, steps))| <= steps + 1
  {
    GridShape(xMin, xMax, steps);
  }

  /** Every point of the curve lies on the function, with x inside [xMin, xMax]. */
  lemma FunctionDataOnCurve(eval: Evaluator, expr: string, xMin: real, xMax: real, steps: int)
    requires Terminates(xMin, xMax, steps)
    ensures forall p :: p in KeepFinite(eval, expr, Grid(xMin, xMax, steps)) ==>
      xMin <= p.x <= xMax && eval(expr, p.x) == Fin(p.y)
  {
    GridShape(xMin, xMax, steps);
    KeepFiniteWithin(eval, expr, Grid(xMin, xMax, steps), xMin, xMax);
  }

  /** The points of the curve come in strictly ascending x order. */
  lemma FunctionDataAscending(eval: Evaluator, expr: string, xMin: real, xMax: real, steps: int)
    requires Terminates(xMin, xMax, steps)
    ensures AscendingX(KeepFinite(eval, expr, Grid(xMin, xMax, steps)))
  {
    GridShape(xMin, xMax, steps);
    KeepFiniteAscending(eval, expr, Grid(xMin, xMax, steps));
  }

  /** When the function is finite at xMin, the curve starts with the point at xMin. */
  lemma FunctionDataStartsAtMin(eval: Evaluator, expr: string, xMin: real, xMax: real, steps: int)
    requires xMin < xMax && steps > 0 && eval(expr, xMin).Fin?
    ensures var data := KeepFinite(eval, expr, Grid(xMin, xMax, steps));
      |data| > 0 && data[0] == Point(xMin, eval(expr, xMin).val)
  {
    GridShape(xMin, xMax, steps);
    KeepFiniteStartsWithFirst(eval, expr, Grid(xMin, xMax, steps));
  }

  /**
    When the region is sampled with the curves' 100 steps, its points are
    exactly the x values present in both curves' data, paired with their y values.
   */
  lemma RegionIsCommonPart(eval: Evaluator, f1: string, f2: string, xMin: real, xMax: real)
    requires Terminates(xMin, xMax, DefaultSteps)
    ensures var xs := Grid(xMin, xMax, DefaultSteps);
      var d1, d2, ts := KeepFinite(eval, f1, xs), KeepFinite(eval, f2, xs), KeepBothFinite(eval, f1, f2, xs);
      (forall t :: t in ts ==> Point(t.x, t.y1) in d1 && Point(t.x, t.y2) in d2) &&
      (forall p, q :: p in d1 && q in d2 && p.x == q.x ==> RegionPoint(p.x, p.y, q.y) in ts)
  {
  }
}

=== FILE: simpson.dfy ===
/**
  Composite Simpson's rule as `VolumeCalculator.integrate` computes it: the
  two endpoint samples are added first, then the interior samples in index
  order with weight 4 at odd and 2 at even indices, and the total is scaled
  by h/3. `Integrate` follows that loop over JavaScript numbers; `Quadrature`
  is the textbook weighted sum over reals, and the lemmas tie the two
  together and prove the quadrature's algebraic properties.
 */
module Simpson {
  import opened JsNumber

  /** `this.defaultSteps` */
  const DefaultSteps: nat := 1000

  /** Width of one subinterval, `h = (upperBound - lowerBound) / steps` */
  function StepWidth(a: real, b: real, n: nat): real
    requires n >= 1
  {
    (b - a) / (n as real)
  }

  /** The i-th sample point `lowerBound + i * h` */
  function Node(a: real, h: real, i: nat): real {
    a + (i as real) * h
  }

  /** The i-th of the n + 1 sample points of [a, b] */
  function SamplePoint(a: real, b: real, n: nat, i: nat): real
    requires n >= 1
  {
    Node(a, StepWidth(a, b, n), i)
  }

  /** Weight the loop gives an interior index: `i % 2 === 0 ? 2 : 4` */
  function InteriorWeight(i: nat): real {
    if i % 2 == 0 then 2.0 else 4.0
  }

  /** Simpson coefficient of sample i out of 0..n: 1 at both ends, interior weight otherwise */
  function Weight(i: nat, n: nat): real {
    if i == 0 || i == n then 1.0 else InteriorWeight(i)
  }

  /** The running `sum` once the loop has processed indices 1..k-1. */
  function Accumulate(f: real -> Num, a: real, b: real, h: real, k: nat): Num
    requires k >= 1
    decreases k
  {
    if k == 1 then Add(f(a), f(b))
    else Add(Accumulate(f, a, b, h, k - 1), Mul(Fin(InteriorWeight(k - 1)), f(Node(a, h, k - 1))))
  }

  /** `integrate(func, lowerBound, upperBound, steps)` */
  function Integrate(f: real -> Num, a: real, b: real, n: nat): Num
    requires n >= 1
  {
    var h := StepWidth(a, b, n);
    Mul(Fin(h / 3.0), Accumulate(f, a, b, h, n))
  }

  /** Every sample point 0..n of the integrand is a finite number. */
  predicate FiniteOn(f: real -> Num, a: real, b: real, n: nat)
    requires n >= 1
  {
    forall i: nat :: i <= n ==> f(SamplePoint(a, b, n, i)).Fin?
  }

  /** The integrand `f` takes the finite values `ys[0..n]` at the sample points 0..n. */
  predicate Agrees(f: real -> Num, ys: seq<real>, a: real, b: real, n: nat)
    requires n >= 1
  {
    && |ys| == n + 1
    && forall i: nat :: i <= n ==> f(SamplePoint(a, b, n, i)) == Fin(ys[i])
  }

  /** The real parts of the n + 1 samples of `f` */
  function SampleValues(f: real -> Num, a: real, b: real, n: nat): (ys: seq<real>)
    requires n >= 1
    ensures |ys| == n + 1
  {
    seq(n + 1, i requires 0 <= i <= n => Re(f(SamplePoint(a, b, n, i))))
  }

  /** The Simpson coefficients of samples 0..n */
  function Weights(n: nat): (ws: seq<real>)
    ensures |ws| == n + 1
  {
    seq(n + 1, i requires 0 <= i <= n => Weight(i, n))
  }

  /** ws[0] + ... + ws[k-1] */
  function Sum(ws: seq<real>, k: nat): real
    requires k <= |ws|
    decreases k
  {
    if k == 0 then 0.0 else Sum(ws, k - 1) + ws[k - 1]
  }

  /** ws[0]*ys[0] + ... + ws[k-1]*ys[k-1] */
  function Dot(ws: seq<real>, ys: seq<real>, k: nat): real
    requires k <= |ws| && k <= |ys|
    decreases k
  {
    if k == 0 then 0.0 else Dot(ws, ys, k - 1) + ws[k - 1] * ys[k - 1]
  }

  /** Composite Simpson's rule over the reals for samples ys[0..n] spaced h apart: (h/3) times the weighted sum */
  function Quadrature(ys: seq<real>, h: real): real
    requires |ys| >= 2
  {
    h / 3.0 * Dot(Weights(|ys| - 1), ys, |ys|)
  }

  lemma NodeEnds(a: real, b: real, n: nat)
    requires n >= 1
    ensures Node(a, StepWidth(a, b, n), 0) == a
    ensures Node(a, StepWidth(a, b, n), n) == b
  {
    DivMul(b - a, n as real);
  }

  /** Under exact arithmetic the running sum of the loop is the index-ordered weighted sum. */
  lemma {:induction false} AccumulateAgrees(f: real -> Num, ys: seq<real>, a: real, b: real, n: nat, k: nat)
    requires 1 <= k <= n
    requires Agrees(f, ys, a, b, n)
    ensures Accumulate(f, a, b, StepWidth(a, b, n), k) == Fin(Dot(Weights(n), ys, k) + ys[n])
  {
    var h := StepWidth(a, b, n);
    NodeEnds(a, b, n);
    assert f(SamplePoint(a, b, n, 0)) == Fin(ys[0]);
    assert f(SamplePoint(a, b, n, n)) == Fin(ys[n]);
    if k == 1 {
      assert Dot(Weights(n), ys, 1) == Weights(n)[0] * ys[0];
    } else {
      AccumulateAgrees(f, ys, a, b, n, k - 1);
      assert f(SamplePoint(a, b, n, k - 1)) == Fin(ys[k - 1]);
      assert Weights(n)[k - 1] == InteriorWeight(k - 1);
    }
  }

  /** `integrate` over finite samples is exactly composite Simpson's rule on the sample values. */
  lemma IntegrateAgrees(f: real -> Num, ys: seq<real>, a: real, b: real, n: nat)
    requires n >= 1
    requires Agrees(f, ys, a, b, n)
    ensures Integrate(f, a, b, n) == Fin(Quadrature(ys, StepWidth(a, b, n)))
  {
    AccumulateAgrees(f, ys, a, b, n, n);
    assert Dot(Weights(n), ys, n + 1) == Dot(Weights(n), ys, n) + ys[n];
  }

  /** A finite integrand agrees with its sample values. */
  lemma FiniteAgrees(f: real -> Num, a: real, b: real, n: nat)
    requires n >= 1 && FiniteOn(f, a, b, n)
    ensures Agrees(f, SampleValues(f, a, b, n), a, b, n)
  {
  }

  /** Partial weight sums: 3k-2 after an odd number k of samples, 3k-1 after an even number. */
  lemma {:induction false} WeightPrefixClosedForm(n: nat, k: nat)
    requires 1 <= k <= n
    ensures Sum(Weights(n), k) == (if k % 2 == 1 then 3 * k - 2 else 3 * k - 1) as real
  {
    if k > 1 {
      WeightPrefixClosedForm(n, k - 1);
      assert Weights(n)[k - 1] == InteriorWeight(k - 1);
    }
  }

  /** The weights 1, 4, 2, 4, ..., 4, 1 sum to 3n when n is even (and to 3n-1 when n is odd). */
  lemma WeightsSum(n: nat)
    requires n >= 1
    ensures Sum(Weights(n), n + 1) == (if n % 2 == 0 then 3 * n else 3 * n - 1) as real
  {
    WeightPrefixClosedForm(n, n);
  }

  lemma {:induction false} DotConstant(ws: seq<real>, ys: seq<real>, c: real, k: nat)
    requires k <= |ws| && k <= |ys|
    requires forall i :: 0 <= i < |ys| ==> ys[i] == c
    ensures Dot(ws, ys, k) == c * Sum(ws, k)
  {
    if k > 0 {
      DotConstant(ws, ys, c, k - 1);
      assert ys[k - 1] == c;
      var p, w := Sum(ws, k - 1), ws[k - 1];
      assert c * p + w * c == c * (p + w);
    }
  }

  /** For even n a constant integrand c integrates to exactly c * (b - a). */
  lemma IntegrateConstant(f: real -> Num, c: real, a: real, b: real, n: nat)
    requires n >= 1 && n % 2 == 0
    requires forall i: nat :: i <= n ==> f(SamplePoint(a, b, n, i)) == Fin(c)
    ensures Integrate(f, a, b, n) == Fin(c * (b - a))
  {
    var h := StepWidth(a, b, n);
    var ys := seq(n + 1, i => c);
    assert Agrees(f, ys, a, b, n);
    IntegrateAgrees(f, ys, a, b, n);
    QuadratureConstant(ys, c, h, n);
    assert (n as real) * h == b - a by {
      DivMul(b - a, n as real);
    }
  }

  lemma QuadratureConstant(ys: seq<real>, c: real, h: real, n: nat)
    requires n >= 1 && n % 2 == 0 && |ys| == n + 1
    requires forall i :: 0 <= i < |ys| ==> ys[i] == c
    ensures Quadrature(ys, h) == c * ((n as real) * h)
  {
    var s := Dot(Weights(n), ys, n + 1);
    assert s == c * (3.0 * (n as real)) by {
      DotConstant(Weights(n), ys, c, n + 1);
      WeightsSum(n);
    }
    QuadratureDot(ys, h, n);
    ConstantStep(Quadrature(ys, h), h, c, s, n as real, (n as real) * h);
  }

  lemma ConstantStep(q: real, h: real, c: real, s: real, m: real, d: real)
    requires q == h / 3.0 * s && s == c * (3.0 * m) && m * h == d
    ensures q == c * d
  {
  }

  lemma QuadratureDot(ys: seq<real>, h: real, n: nat)
    requires n >= 1 && |ys| == n + 1
    ensures Quadrature(ys, h) == h / 3.0 * Dot(Weights(n), ys, n + 1)
  {
  }

  /** Subtracting samples pointwise subtracts the loop's running sums, as long as the samples are finite. */
  lemma {:induction false} AccumulateSub(f: real -> Num, f1: real -> Num, f2: real -> Num, a: real, b: real, n: nat, k: nat)
    requires 1 <= k <= n
    requires FiniteOn(f1, a, b, n) && FiniteOn(f2, a, b, n)
    requires forall i: nat :: i <= n ==>
      f(SamplePoint(a, b, n, i)) == Sub(f1(SamplePoint(a, b, n, i)), f2(SamplePoint(a, b, n, i)))
    ensures Accumulate(f1, a, b, StepWidth(a, b, n), k).Fin? && Accumulate(f2, a, b, StepWidth(a, b, n), k).Fin?
    ensures Accumulate(f, a, b, StepWidth(a, b, n), k) ==
      Sub(Accumulate(f1, a, b, StepWidth(a, b, n), k), Accumulate(f2, a, b, StepWidth(a, b, n), k))
  {
    var h := StepWidth(a, b, n);
    if k == 1 {
      NodeEnds(a, b, n);
      var x0, xn := SamplePoint(a, b, n, 0), SamplePoint(a, b, n, n);
      assert f1(x0).Fin? && f2(x0).Fin? && f(x0) == Sub(f1(x0), f2(x0));
      assert f1(xn).Fin? && f2(xn).Fin? && f(xn) == Sub(f1(xn), f2(xn));
      SubAddFinite(f1(a), f2(a), f1(b), f2(b));
    } else {
      AccumulateSub(f, f1, f2, a, b, n, k - 1);
      var x := SamplePoint(a, b, n, k - 1);
      assert f1(x).Fin? && f2(x).Fin? && f(x) == Sub(f1(x), f2(x));
      SubAccumulateStep(InteriorWeight(k - 1), Accumulate(f1, a, b, h, k - 1), Accumulate(f2, a, b, h, k - 1), f1(x), f2(x));
    }
  }

  /** (p1 - p2) + (q1 - q2) == (p1 + q1) - (p2 + q2) on finite numbers */
  lemma SubAddFinite(p1: Num, p2: Num, q1: Num, q2: Num)
    requires p1.Fin? && p2.Fin? && q1.Fin? && q2.Fin?
    ensures Add(Sub(p1, p2), Sub(q1, q2)) == Sub(Add(p1, q1), Add(p2, q2))
  {
  }

  /** One loop step commutes with subtraction: (s1 - s2) + w*(y1 - y2) == (s1 + w*y1) - (s2 + w*y2) on finite numbers */
  lemma SubAccumulateStep(w: real, s1: Num, s2: Num, y1: Num, y2: Num)
    requires s1.Fin? && s2.Fin? && y1.Fin? && y2.Fin?
    ensures Add(Sub(s1, s2), Mul(Fin(w), Sub(y1, y2))) == Sub(Add(s1, Mul(Fin(w), y1)), Add(s2, Mul(Fin(w), y2)))
  {
    assert w * (y1.val - y2.val) == w * y1.val - w * y2.val;
  }

  /** `integrate(f - g) == integrate(f) - integrate(g)` when both integrands are finite at every sample. */
  lemma IntegrateSub(f: real -> Num, f1: real -> Num, f2: real -> Num, a: real, b: real, n: nat)
    requires n >= 1
    requires FiniteOn(f1, a, b, n) && FiniteOn(f2, a, b, n)
    requires forall i: nat :: i <= n ==>
      f(SamplePoint(a, b, n, i)) == Sub(f1(SamplePoint(a, b, n, i)), f2(SamplePoint(a, b, n, i)))
    ensures Integrate(f, a, b, n) == Sub(Integrate(f1, a, b, n), Integrate(f2, a, b, n))
  {
    var h := StepWidth(a, b, n);
    AccumulateSub(f, f1, f2, a, b, n, n);
    MulSubFinite(h / 3.0, Accumulate(f1, a, b, h, n), Accumulate(f2, a, b, h, n));
  }

  /** Scaling every sample by c scales the loop's running sum by c, as long as the samples are finite. */
  lemma {:induction false} AccumulateScale(f: real -> Num, f1: real -> Num, c: real, a: real, b: real, n: nat, k: nat)
    requires 1 <= k <= n
    requires FiniteOn(f1, a, b, n)
    requires forall i: nat :: i <= n ==>
      f(SamplePoint(a, b, n, i)) == Mul(Fin(c), f1(SamplePoint(a, b, n, i)))
    ensures Accumulate(f1, a, b, StepWidth(a, b, n), k).Fin?
    ensures Accumulate(f, a, b, StepWidth(a, b, n), k) == Mul(Fin(c), Accumulate(f1, a, b, StepWidth(a, b, n), k))
  {
    var h := StepWidth(a, b, n);
    if k == 1 {
      NodeEnds(a, b, n);
      assert f1(SamplePoint(a, b, n, 0)).Fin? && f1(SamplePoint(a, b, n, n)).Fin?;
      assert f(SamplePoint(a, b, n, 0)) == Mul(Fin(c), f1(SamplePoint(a, b, n, 0)));
      assert f(SamplePoint(a, b, n, n)) == Mul(Fin(c), f1(SamplePoint(a, b, n, n)));
      MulAddFinite(c, f1(a), f1(b));
    } else {
      AccumulateScale(f, f1, c, a, b, n, k - 1);
      var x := SamplePoint(a, b, n, k - 1);
      assert f1(x).Fin? && f(x) == Mul(Fin(c), f1(x));
      ScaleAccumulateStep(c, InteriorWeight(k - 1), Accumulate(f1, a, b, h, k - 1), f1(x));
    }
  }

  /** c*p + c*q == c*(p + q) on finite numbers */
  lemma MulAddFinite(c: real, p: Num, q: Num)
    requires p.Fin? && q.Fin?
    ensures Add(Mul(Fin(c), p), Mul(Fin(c), q)) == Mul(Fin(c), Add(p, q))
  {
    assert c * p.val + c * q.val == c * (p.val + q.val);
  }

  /** One loop step commutes with scaling: c*s + w*(c*y) == c*(s + w*y) on finite numbers */
  lemma ScaleAccumulateStep(c: real, w: real, s: Num, y: Num)
    requires s.Fin? && y.Fin?
    ensures Add(Mul(Fin(c), s), Mul(Fin(w), Mul(Fin(c), y))) == Mul(Fin(c), Add(s, Mul(Fin(w), y)))
  {
    assert w * (c * y.val) == c * (w * y.val);
    assert c * s.val + c * (w * y.val) == c * (s.val + w * y.val);
  }

  /** `integrate(k * f) == k * integrate(f)` when f is finite at every sample. */
  lemma IntegrateScale(f: real -> Num, f1: real -> Num, c: real, a: real, b: real, n: nat)
    requires n >= 1
    requires FiniteOn(f1, a, b, n)
    requires forall i: nat :: i <= n ==>
      f(SamplePoint(a, b, n, i)) == Mul(Fin(c), f1(SamplePoint(a, b, n, i)))
    ensures Integrate(f, a, b, n) == Mul(Fin(c), Integrate(f1, a, b, n))
  {
    var h := StepWidth(a, b, n);
    AccumulateScale(f, f1, c, a, b, n, n);
    var s1 := Accumulate(f1, a, b, h, n);
    assert (h / 3.0) * (c * s1.val) == c * ((h / 3.0) * s1.val);
  }

  lemma {:induction false} AccumulateCongruent(f: real -> Num, f': real -> Num, a: real, b: real, n: nat, k: nat)
    requires 1 <= k <= n
    requires forall i: nat :: i <= n ==> f(SamplePoint(a, b, n, i)) == f'(SamplePoint(a, b, n, i))
    ensures Accumulate(f, a, b, StepWidth(a, b, n), k) == Accumulate(f', a, b, StepWidth(a, b, n), k)
  {
    var h := StepWidth(a, b, n);
    if k == 1 {
      NodeEnds(a, b, n);
      assert f(SamplePoint(a, b, n, 0)) == f'(SamplePoint(a, b, n, 0));
      assert f(SamplePoint(a, b, n, n)) == f'(SamplePoint(a, b, n, n));
    } else {
      AccumulateCongruent(f, f', a, b, n, k - 1);
      assert f(SamplePoint(a, b, n, k - 1)) == f'(SamplePoint(a, b, n, k - 1));
    }
  }

  /** `integrate` only looks at the integrand at the n + 1 sample points. */
  lemma IntegrateCongruent(f: real -> Num, f': real -> Num, a: real, b: real, n: nat)
    requires n >= 1
    requires forall i: nat :: i <= n ==> f(SamplePoint(a, b, n, i)) == f'(SamplePoint(a, b, n, i))
    ensures Integrate(f, a, b, n) == Integrate(f', a, b, n)
  {
    AccumulateCongruent(f, f', a, b, n, n);
  }

  lemma {:induction false} AccumulateFinite(f: real -> Num, a: real, b: real, h: real, k: nat)
    requires k >= 1
    ensures Accumulate(f, a, b, h, k).Fin? <==>
      f(a).Fin? && f(b).Fin? && forall i: nat :: 1 <= i < k ==> f(Node(a, h, i)).Fin?
  {
    if k > 1 {
      AccumulateFinite(f, a, b, h, k - 1);
    }
  }

  /** The result of `integrate` is finite exactly when the integrand is finite at every sample point. */
  lemma IntegrateFiniteIff(f: real -> Num, a: real, b: real, n: nat)
    requires n >= 1
    ensures Integrate(f, a, b, n).Fin? <==> FiniteOn(f, a, b, n)
  {
    var h := StepWidth(a, b, n);
    AccumulateFinite(f, a, b, h, n);
    NodeEnds(a, b, n);
    if Integrate(f, a, b, n).Fin? {
      forall i: nat | i <= n
        ensures f(SamplePoint(a, b, n, i)).Fin?
      {
        if i == 0 {
          assert SamplePoint(a, b, n, i) == a;
        } else if i == n {
          assert SamplePoint(a, b, n, i) == b;
        }
      }
    }
    if FiniteOn(f, a, b, n) {
      assert f(SamplePoint(a, b, n, 0)).Fin? && f(SamplePoint(a, b, n, n)).Fin?;
      forall i: nat | 1 <= i < n
        ensures f(Node(a, h, i)).Fin?
      {
        assert f(SamplePoint(a, b, n, i)).Fin?;
      }
    }
  }

  lemma {:induction false} AccumulateNaN(f: real -> Num, a: real, b: real, h: real, k: nat, j: nat)
    requires k >= 1
    requires f(a).NaN? || f(b).NaN? || (1 <= j < k && f(Node(a, h, j)).NaN?)
    ensures Accumulate(f, a, b, h, k).NaN?
  {
    if k > 1 {
      if j == k - 1 && f(Node(a, h, j)).NaN? && !f(a).NaN? && !f(b).NaN? {
      } else {
        AccumulateNaN(f, a, b, h, k - 1, j);
      }
    }
  }

  /** No sample is skipped: a NaN at any sample point makes the whole integral NaN. */
  lemma IntegrateNaN(f: real -> Num, a: real, b: real, n: nat, j: nat)
    requires n >= 1 && j <= n
    requires f(Node(a, StepWidth(a, b, n), j)).NaN?
    ensures Integrate(f, a, b, n).NaN?
  {
    NodeEnds(a, b, n);
    AccumulateNaN(f, a, b, StepWidth(a, b, n), n, j);
  }

  /** A zero-width interval integrates to 0, unless the single sampled value is not finite. */
  lemma IntegrateZeroWidth(f: real -> Num, a: real, n: nat)
    requires n >= 1
    ensures Integrate(f, a, a, n) == (if f(a).Fin? then Fin(0.0) else NaN)
  {
    var h := StepWidth(a, a, n);
    assert h == 0.0;
    AccumulateFinite(f, a, a, h, n);
    assert forall i: nat :: Node(a, h, i) == a;
    MulZero(Accumulate(f, a, a, h, n));
  }

  lemma {:induction false} DotNonNegative(ws: seq<real>, ys: seq<real>, k: nat)
    requires k <= |ws| && k <= |ys|
    requires forall i :: 0 <= i < |ws| ==> ws[i] > 0.0
    requires forall i :: 0 <= i < |ys| ==> ys[i] >= 0.0
    ensures Dot(ws, ys, k) >= 0.0
  {
    if k > 0 {
      DotNonNegative(ws, ys, k - 1);
      assert ws[k - 1] > 0.0 && ys[k - 1] >= 0.0;
    }
  }

  /** With a <= b, an integrand that is finite and non-negative at every sample has a finite, non-negative integral. */
  lemma IntegrateNonNegative(f: real -> Num, a: real, b: real, n: nat)
    requires n >= 1 && a <= b
    requires forall i: nat :: i <= n ==>
      f(SamplePoint(a, b, n, i)).Fin? && f(SamplePoint(a, b, n, i)).val >= 0.0
    ensures Integrate(f, a, b, n).Fin? && Integrate(f, a, b, n).val >= 0.0
  {
    var h := StepWidth(a, b, n);
    FiniteAgrees(f, a, b, n);
    var ys := SampleValues(f, a, b, n);
    IntegrateAgrees(f, ys, a, b, n);
    var d := Dot(Weights(n), ys, n + 1);
    assert d >= 0.0 by {
      assert forall i :: 0 <= i < |ys| ==> ys[i] >= 0.0 by {
        forall i | 0 <= i < |ys|
          ensures ys[i] >= 0.0
        {
          assert f(SamplePoint(a, b, n, i)).val >= 0.0;
        }
      }
      DotNonNegative(Weights(n), ys, n + 1);
    }
    assert h >= 0.0;
    QuadratureDot(ys, h, n);
    MulNonNegative(h / 3.0, d);
  }

  lemma MulNonNegative(x: real, y: real)
    requires x >= 0.0 && y >= 0.0
    ensures x * y >= 0.0
  {
  }
}

=== FILE: wrappers.dfy ===
/** An optional value: a JavaScript property that may be absent. */
module Wrappers {

  datatype Option<+T> = None | Some(value: T)
}
